=== FILE: README.md ===
# chewingwl session controller in Dafny

chewingwl is a Wayland input method for Zhuyin (bopomofo) built on the chewing
conversion engine. Its core is the session controller in `src/main.rs`. The
controller receives key presses, key releases, modifier changes and the
compositor's `done` events. It feeds keys to the chewing editor. It answers
with batches of requests: set the pre-edit string with a cursor, commit,
commit a string, forward a key to the virtual keyboard, and show or hide the
candidate popup.

This project models that controller as a pure step function. `Ime.Step`
takes the editor interface, a session and a message. It returns either a
`Panic` (where the Rust code would panic) or the next session plus the
requests it batches, in order. The editor is a parameter: `Chewing.Engine` is
a record of the queries and commands the controller calls. The project then
proves properties of that model.

Modules:

- `Outcomes`: `Option`, and `Result` with `Panic(Fault)`. A fault is a
  `usize` underflow (debug-build arithmetic; overflow is not modelled) or a
  slice out of range.
- `Utf8`: RFC 3629 encoding (section 3). It defines the char-to-byte cursor
  transcoding of `set_cursor_position` and its inverse.
- `Paging`: the candidate list cut into pages of `max_candidates = 10`; the
  row windows the popup's arrow keys rebuild; the flat index
  `page * max_candidates + index`; and the digit shortcuts and labels.
- `Events`: keys, key events, modifiers, messages and the requests sent out.
- `Chewing`: the editor interface and `Chewing::preedit`.
- `Ime`: the session record, every handler of `Application::update`, and
  `Step` itself.
- `ImeProperties`: the properties of the state machine, the paginator and
  the cursor, plus the places where the code as written goes wrong.
- `Scenarios`: concrete sessions against a small stand-in editor, stated as
  exact request sequences.

Behaviour of the code that a reader might not expect, which the model keeps:

- `open_popup` does not reject an empty candidate list. The popup opens with
  one empty page, and the next ArrowDown panics.
- A failed `select` is ignored, and the popup closes anyway.
- `commit_string` does not clear `current_preedit`.
- Escape in the popup checks the editor's new cursor against the old
  `current_preedit`, which it does not refresh.
- `Deactivate` hides the popup but leaves the `popup` flag set. A later
  composition therefore re-shows the popup on `done`.

## Model

| member | source | states |
|---|---|---|
| Chewing.Preedit | src/main.rs:70-72 | the pre-edit is the converted text followed by the pending syllable buffer, split exactly at the text's length |
| Chewing.AsciiKey | src/main.rs:299-302 | `char as u8` keeps the low 8 bits: the byte equals the code point below 256 and agrees with it modulo 256 otherwise |
| Utf8.ByteOffset | src/main.rs:93-99 | the cursor byte offset equals the UTF-8 length of the first `k` chars |
| Utf8.LemmaOffsetEnds | src/main.rs:93-99 | the transcoded cursor is 0 at char 0 and the full byte length at the last char |
| Utf8.LemmaOffsetStrictlyMonotone | src/main.rs:93-99 | a later char position always gives a strictly larger byte offset |
| Utf8.LemmaOffsetOnBoundary | src/main.rs:93-99 | every transcoded cursor lies on a char boundary of the encoded pre-edit |
| Utf8.LemmaBoundaryIsOffset | src/main.rs:93-99 | every char boundary of the encoding is the transcoding of some char position |
| Utf8.LemmaCharIndexOfOffset | src/main.rs:93-99 | transcoding to bytes and back gives the char position again |
| Utf8.LemmaOffsetOfCharIndex | src/main.rs:93-99 | on a char boundary, transcoding to chars and back gives the byte offset again |
| Utf8.LemmaEncodeAppend | src/main.rs:95-98 | the byte length of a concatenation is the sum of the byte lengths, since encoding distributes over concatenation |
| Ime.AsI32 | src/main.rs:110-111 | `usize as i32` yields a value in the i32 range, congruent to the input modulo 2^32 and equal to it below 2^31 |
| Ime.SetCursorPosition | src/main.rs:93-99 | succeeds exactly when the editor cursor is within `current_preedit`, else panics on the slice; the byte cursor is on a char boundary and nothing else changes |
| Ime.PreeditString | src/main.rs:101-115 | records the editor's pre-edit and its byte length, waits for done, and sends the pre-edit with an empty selection at the transcoded cursor, then Commit; panics exactly when the cursor is past the pre-edit |
| Ime.CommitPreedit | src/main.rs:117-127 | commits the pre-edit text, then Commit; the editor gets Enter; the state becomes pass-through and nothing else changes |
| Ime.OpenPopup | src/main.rs:129-150 | the editor gets Down and the candidates are fetched from the new editor state; the popup is flagged with the first page as the only row at page 0, slot 0; the pre-edit from before the key is sent, with the new editor cursor transcoded to bytes against the old `current_preedit`; panics exactly when that cursor is past the old `current_preedit` |
| Ime.NumSelect | src/main.rs:152-170 | selects flat candidate `page * 10 + slot`, clears the popup flag, waits for done, and sends the new pre-edit, Commit and HidePopup; panics exactly when the cursor is past the new pre-edit |
| Ime.CancelPopup | src/main.rs:411-427 | the editor gets Esc; returns to pre-edit with the popup flag cleared; sends the new pre-edit, Commit and HidePopup; the sent cursor is the editor's new cursor transcoded to bytes against the old `current_preedit`, and it panics exactly when that cursor is past it |
| Ime.PopupDown | src/main.rs:320-343 | sends nothing; either refetches or only moves the slot, and always refetches from slot `min(len, 10) - 1`; always panics on an empty candidate list |
| Ime.PopupUp | src/main.rs:344-347 | decrements the slot, saturating at 0; nothing else changes |
| Ime.PopupLeft | src/main.rs:348-364 | steps back one page, saturating at 0; on a window-start page other than 0 the rows become the exact window `page / 3 - 1`, succeeding exactly when that window is in range; elsewhere it always succeeds with the rows kept; fails only by a slice out of range |
| Ime.RebuildRight | src/main.rs:367-384 | row `i` is page `page / 3 * 4 + i` of the candidate list, with as many rows as the editor reports pages from that start, at most 4; it panics when the editor reports fewer pages than the window start; only the rows change |
| Ime.PopupRight | src/main.rs:365-391 | moves to `min(page + 1, total - 1)` within the editor's page range; the slot becomes `min(index, len % 10 - 1)` on the last page and is kept elsewhere; the rows are rebuilt from page 0 and page 3 and kept elsewhere; only page, slot and rows change; panics when the editor reports no pages |
| Ime.Refetch | src/main.rs:326-335 | the editor gets Down, the candidates are refetched from it, and its first page is the only row at page 0, slot 0; nothing else changes |
| Ime.FirstWindow | src/main.rs:140-141 | the only row is the first page of the candidate list |
| Ime.Initial | src/main.rs:199-219 | a new session passes keys through, has no popup, latch, mode, candidates, rows or pre-edit, and starts at page 0, slot 0 |
| Ime.PreEditKey | src/main.rs:239-308 | Enter commits, ArrowDown opens the popup; any other key that sends something starts with a pre-edit and waits for done, and a key that sends nothing changes nothing |
| Ime.PopupKey | src/main.rs:309-429 | the popup either stays open, sending nothing and keeping its flag, or closes, clearing the flag, moving to waiting or pre-edit, with HidePopup as the last request; a key with no popup binding (src/main.rs:428) changes nothing and sends nothing |
| Ime.PassThroughKey | src/main.rs:435-475 | the mode is kept; the latch is armed exactly by shift; in forced mode every other key is forwarded untouched; otherwise a shifted Space is fed to the editor silently, a key without text is forwarded, and any other key that stays in pass-through is forwarded; leaving pass-through means a pre-edit was sent and done is awaited |
| Ime.KeyRelease | src/main.rs:477-488 | only the latch and the mode can change, and outside pass-through nothing changes at all; the mode flips exactly on an armed shift release in pass-through; other releases are forwarded exactly in pass-through |
| Ime.OnDone | src/main.rs:492-506 | only the state changes; the popup is shown exactly when waiting with the flag set; waiting always ends; outside waiting nothing happens |
| Ime.Deactivated | src/main.rs:231-237 | the editor gets Esc, the state becomes pass-through, HidePopup is the only request, and the popup flag is kept |
| Ime.Step | src/main.rs:225-532 | only key presses and ClosePopup can panic; Activate only sets pass-through; modifiers are forwarded unchanged; UpdatePopup only sets page and slot |
| Events.LastChar | src/main.rs:459-460 | the character is the last one of the event's text, and there is one exactly when the text is present and non-empty |
| Paging.PageCount | src/main.rs:366 | the page count is the ceiling of `len / 10`, and zero exactly for an empty list |
| Paging.PageAt | src/main.rs:140-141 | page `p` holds at most 10 entries, and entry `i` is candidate `p * 10 + i` |
| Paging.ClampedWindow | src/main.rs:373-382 | succeeds exactly when every row starts within the list; row `i` is page `first + i` |
| Paging.ExactWindow | src/main.rs:353-359 | succeeds exactly when every row ends within the list; row `i` is page `first + i`, of full length |
| Paging.LemmaPageShape | src/main.rs:366 | the reference pagination has ceil(len/10) pages, each non-empty and at most 10 long |
| Paging.LemmaPagesPartition | src/main.rs:140-141 | concatenating all pages gives back the candidate list |
| Paging.LemmaWindowFlattens | src/main.rs:373-382 | the rows of a window concatenate to the contiguous slice of candidates they cover |
| Paging.LemmaWindowStep | src/main.rs:373-382 | a window of two or more rows is one full page followed by the window one page on |
| Paging.LemmaWindowIsPageRun | src/main.rs:373-382 | a window within the page range is a run of consecutive pages of the reference pagination |
| Paging.LemmaFlatIndexSelects | src/main.rs:152-158 | flat index `page * 10 + slot` addresses slot `slot` of page `page`, and division and remainder recover page and slot |
| Paging.LemmaFlatIndexCovers | src/main.rs:152-158 | every candidate index is the flat index of a slot of an existing page |
| Paging.LemmaDivModUnique | src/main.rs:152-158 | page and slot are determined by the flat index |
| Paging.LemmaPageLength | src/main.rs:320-343 | every page but the last is full; the last page ends at `LastSlot` |
| Paging.LemmaLastSlotEndsLastPage | src/main.rs:320-343 | the last page's length is `LastSlot + 1` |
| Paging.LemmaLastSlotAsWritten | src/main.rs:322-338 | `len % 10 - 1` is the last page's last slot exactly when the last page is not full; on a full last page it underflows |
| Paging.ShortcutSlot | src/main.rs:310-319 | digit keys pick slots below 10 |
| Paging.SlotLabel | src/main.rs:547 | the label beside each slot is a single digit |
| Paging.LemmaShortcutMatchesLabel | src/main.rs:310-319 | the digit printed beside a slot selects exactly that slot, and only that digit does |
| ImeProperties.LemmaPreeditRequestShape | src/main.rs:101-115 | a pre-edit request pair is well formed and never shows the popup |
| ImeProperties.LemmaPreeditStringOutcome | src/main.rs:101-115 | a pre-edit refresh keeps batches well formed, keeps the mode and the candidate list, and never shows the popup |
| ImeProperties.LemmaNumSelectOutcome | src/main.rs:152-170 | a selection keeps batches well formed, keeps the mode and the candidates, and never shows the popup |
| ImeProperties.LemmaPreEditKeyOutcome | src/main.rs:239-308 | every pre-edit key keeps the batch invariants, and only ArrowDown changes the candidate list, to the editor's fresh list |
| ImeProperties.LemmaPopupKeyOutcome | src/main.rs:309-429 | every popup key keeps the batch invariants, and only ArrowDown changes the candidate list |
| ImeProperties.LemmaPassThroughKeyOutcome | src/main.rs:435-475 | every pass-through key keeps the batch invariants and the candidate list |
| ImeProperties.LemmaKeyPressedOutcome | src/main.rs:238-434 | in any state a key press keeps the batch invariants; the candidates change only in pre-edit or popup, on ArrowDown |
| ImeProperties.LemmaStepBatch | src/main.rs:225-532 | every batch is well formed; the popup is shown exactly when `done` arrives while waiting with the popup flag set, and then the state is Popup |
| ImeProperties.LemmaPreeditCursor | src/main.rs:93-115 | the cursor sent is the byte transcoding of the editor cursor: 0 at the start, the byte length at the end, on a char boundary, and it transcodes back to the editor cursor |
| ImeProperties.LemmaPreeditNeverPanics | src/main.rs:101-115 | if the editor keeps its cursor within its pre-edit, a pre-edit refresh never panics and always waits for done |
| ImeProperties.LemmaWaitingDropsKeys | src/main.rs:430-434 | while waiting for done, key presses and releases change nothing and send nothing |
| ImeProperties.LemmaDone | src/main.rs:492-506 | done goes to Popup and shows it if the popup is pending, else to PreEdit if there is text, else to PassThrough; outside waiting it is a no-op; only the state changes |
| ImeProperties.LemmaPreEditKeysWait | src/main.rs:239-308 | every pre-edit key other than Enter that sends anything starts with a pre-edit and waits for done |
| ImeProperties.LemmaEditingKeysReachEditor | src/main.rs:240-297 | while composing, Backspace, Space, Escape, Delete, the left, right and up arrows and Tab each hand their own editor key to the editor before the pre-edit is refreshed, and shifted Space goes through the shift mapping |
| ImeProperties.LemmaPrintableInPreEdit | src/main.rs:298-307 | while composing, any other key with text hands `map_ascii` of its last char's low byte to the editor before the pre-edit is refreshed; a key without text changes nothing and sends nothing |
| ImeProperties.LemmaEnterCommits | src/main.rs:260 | Enter while composing commits the pre-edit and sends exactly CommitString then Commit |
| ImeProperties.LemmaSelectionPaths | src/main.rs:310-319 | digits, Enter in the popup and ClosePopup all select through `num_select`, with the shown digit's slot or the current slot |
| ImeProperties.LemmaSelectsDisplayedCandidate | src/main.rs:152-158 | when the highlighted column shows the current page, the flat index picks exactly the candidate displayed in the chosen slot |
| ImeProperties.LemmaUpSaturates | src/main.rs:344-347 | ArrowUp moves up one slot and at slot 0 is a no-op |
| ImeProperties.LemmaLeftSaturates | src/main.rs:348-364 | ArrowLeft moves back one page and at page 0 is a no-op |
| ImeProperties.LemmaRightRowsArePages | src/main.rs:365-391 | ArrowRight stays within the editor's pages, and every row it rebuilds is a page of the candidate list |
| ImeProperties.LemmaPopupKeys | src/main.rs:320-427 | in the popup the arrows and Escape reach their handlers |
| ImeProperties.LemmaCancelAgreesWithRefresh | src/main.rs:411-427 | when Esc leaves the pre-edit text unchanged, Escape in the popup panics exactly when a fresh `preedit_string` of the new editor would, and otherwise sends the same pre-edit request with the same byte cursor, followed by HidePopup |
| ImeProperties.LemmaDownStaysOnPage | src/main.rs:320-343 | from a slot on the current page, ArrowDown refetches at page 0, slot 0 exactly from the page's last slot and otherwise moves to the next slot; it panics exactly on a full last page away from its tenth slot |
| ImeProperties.LemmaDownAtLastSlotRefetches | src/main.rs:320-335 | ArrowDown from the last slot fetches the editor's next batch and shows its first page |
| ImeProperties.LemmaWindowMove | src/main.rs:344-391 | moving within a window keeps the rows valid |
| ImeProperties.LemmaShowsWindowShowsPage | src/main.rs:536-562 | if the rows are the page's window, the highlighted column shows the current page |
| ImeProperties.LemmaOpenPopupShowsWindow | src/main.rs:129-150 | `open_popup` on a non-empty list establishes the window invariant |
| ImeProperties.LemmaRebuiltRows | src/main.rs:367-384 | the rows ArrowRight rebuilds are the window of the page it moves to |
| ImeProperties.LemmaRightRebuildsWindow | src/main.rs:365-391 | ArrowRight from page 0 or page 3 re-establishes the window invariant |
| ImeProperties.LemmaRightMovesInWindow | src/main.rs:365-391 | other ArrowRight moves below page 7 keep the rows unchanged and the invariant |
| ImeProperties.LemmaRightKeepsWindow | src/main.rs:365-391 | ArrowRight keeps the window invariant up to page 7, except on page 3 when it is the last page |
| ImeProperties.LemmaWindowFresh | src/main.rs:353-382 | a complete window of consecutive pages from the page's window start satisfies the invariant |
| ImeProperties.LemmaFullWindow | src/main.rs:353-359 | a full window of four full pages exists and is valid for its last page |
| ImeProperties.LemmaLeftRebuildsWindow | src/main.rs:348-364 | ArrowLeft from page 4 or 8 rebuilds the previous window correctly and never panics |
| ImeProperties.LemmaLeftMovesInWindow | src/main.rs:348-364 | ArrowLeft from a page that does not start a window succeeds, keeps the rows unchanged and keeps the invariant |
| ImeProperties.LemmaUpKeepsSlot | src/main.rs:344-347 | ArrowUp keeps the slot on the current page |
| ImeProperties.LemmaLeftKeepsSlot | src/main.rs:348-364 | ArrowLeft keeps the slot on the current page, since the page it moves to is full |
| ImeProperties.LemmaDownKeepsSlot | src/main.rs:320-343 | ArrowDown keeps the slot on the current page, and after a fetch of a non-empty batch the slot is on its first page |
| ImeProperties.LemmaRightKeepsSlot | src/main.rs:385-389 | ArrowRight keeps the slot on the current page: the clamp to `len % 10 - 1` is the last page's last slot |
| ImeProperties.LemmaRightPanicsExactly | src/main.rs:365-391 | from a page the editor reports, ArrowRight panics exactly when it lands on the last page and that page is full |
| ImeProperties.LemmaArrowsKeepSlot | src/main.rs:320-391 | every arrow key in the popup keeps the slot on its page, unless a fetch brings an empty batch |
| ImeProperties.LemmaLeftKeepsWindow | src/main.rs:348-364 | ArrowLeft keeps the window invariant and never panics up to page 8 |
| ImeProperties.LemmaPrintableInPassThrough | src/main.rs:459-470 | a printable key in pass-through goes to the editor; it is forwarded if the pre-edit stays empty, else a pre-edit refresh starts |
| ImeProperties.LemmaForcedPassThroughForwards | src/main.rs:436-443 | in forced pass-through every non-shift key is forwarded and the editor is not consulted |
| ImeProperties.LemmaShiftPressArms | src/main.rs:435-475 | in pass-through a shift press arms the latch and any other key press disarms it |
| ImeProperties.LemmaReleaseInPassThrough | src/main.rs:477-486 | a shift release with the latch armed flips the mode silently; every other release is forwarded |
| ImeProperties.LemmaModeFlipsOnlyOnShiftTap | src/main.rs:477-488 | the pass-through mode changes exactly on a shift release in pass-through with the latch armed |
| ImeProperties.LemmaDoubleTapRestoresMode | src/main.rs:436-488 | after one shift tap the mode is flipped; after two it is restored; none of the four events sends anything |
| ImeProperties.LemmaDeactivate | src/main.rs:231-237 | deactivation escapes the editor, forces pass-through, hides the popup, and keeps the popup flag |
| ImeProperties.LemmaModifiersForwarded | src/main.rs:489-491 | modifier changes are forwarded in every state and change nothing |
| ImeProperties.LemmaStepKeepsPopupFlagged | src/main.rs:225-532 | the Popup state is only ever held with the popup flag set; every step preserves this |
| ImeProperties.LemmaCandidatesChangeOnlyOnFetch | src/main.rs:225-532 | the candidate list changes only on ArrowDown in pre-edit or popup, and then to the editor's fresh list |
| ImeProperties.LemmaRightOntoFullLastPagePanics | src/main.rs:385-389 | moving onto a full last page with ArrowRight panics on `len % 10 - 1` |
| ImeProperties.LemmaEmptyCandidatesOpenPopup | src/main.rs:129-150 | an empty candidate list opens a popup with one empty page, and the next ArrowDown panics |
| ImeProperties.LemmaLeftWindowIndex | src/main.rs:349-351 | ArrowLeft's window `page / 3 - 1` is the previous page's window exactly for pages 4 and 8 |
| ImeProperties.LemmaLeftFromTwelfthPage | src/main.rs:348-364 | from page 12, ArrowLeft rebuilds window 3: it panics with fewer than 16 full pages, else it highlights page 15's row while on page 11 |
| ImeProperties.LemmaRightWindowGoesStale | src/main.rs:365-391 | ArrowRight from page 7 keeps window 1, so page 8 is highlighted over page 4's row |
| ImeProperties.LemmaRightEmptiesWindow | src/main.rs:367-384 | ArrowRight on page 3 when it is the last page rebuilds an empty row set |
| Scenarios.LemmaRunAppend | src/main.rs:225-532 | running two message sequences in turn is running their concatenation |
| Scenarios.LemmaRunTrace | src/main.rs:225-532 | a chain of successful steps runs to the last session with all requests concatenated |
| Scenarios.LemmaTwentyThreeCandidatesPaginate | src/main.rs:140-141 | 23 candidates make pages of 10, 10 and 3 |
| Scenarios.LemmaRightTwiceClampsSlot | src/main.rs:365-391 | with 23 candidates, ArrowRight twice from slot 5 reaches page 2 with the slot clamped to 2 |
| Scenarios.LemmaDownOnLastPage | src/main.rs:320-343 | on the 3-entry last page ArrowDown moves to the next slot and refetches from the last one |
| Scenarios.LemmaDigitSelectsOnPage | src/main.rs:310-319 | digit 3 on page 1 selects flat candidate 12, the entry shown third in the highlighted row |
| Scenarios.LemmaBopomofoCursor | src/main.rs:93-99 | after two of three bopomofo chars the cursor is at byte 6 of 9, and maps back to char 2 |
| Scenarios.LemmaDigitPassesThrough | src/main.rs:459-467 | a digit in pass-through with an empty pre-edit is forwarded raw |
| Scenarios.LemmaLetterStartsComposition | src/main.rs:459-470 | a letter in pass-through starts a composition and sends the pre-edit with the cursor after it |
| Scenarios.LemmaPopupAtShowsWindow | src/main.rs:365-384 | the example popups on pages 0 to 2 show their page's window and their current page |
| Scenarios.LemmaComposeN | src/main.rs:459-506 | typing `n` from idle, then done, sends the pre-edit with the cursor after `n` and composes |
| Scenarios.LemmaOpenAndShow | src/main.rs:285-506 | ArrowDown while composing `n`, then two dones, sends the pre-edit again and shows the popup once |
| Scenarios.LemmaPopupShownOnce | src/main.rs:285-506 | typing `n`, done, ArrowDown, done, done sends two pre-edits and shows the popup exactly once |
| Scenarios.LemmaEmptyListPanics | src/main.rs:129-150 | an empty candidate list opens the popup, and ArrowDown in it panics |
| Scenarios.LemmaOpenThenDeactivate | src/main.rs:231-237 | opening the popup and deactivating leaves pass-through with the popup flag still set |
| Scenarios.LemmaTypeAfterDeactivate | src/main.rs:492-497 | after that, typing a letter and done re-shows the old popup |
| Scenarios.LemmaStalePopupAfterDeactivate | src/main.rs:231-237 | deactivating with a popup pending makes the next composition's done show the stale popup |

## Left out

- `main`, `Chewing::new`, `Application::new`'s I/O, `view`, `subscription`,
  `CustomTheme` and the selection-field widget and style files. These are
  process setup, theming and rendering; the model keeps only what `view`
  prints as slot labels.
- The chewing engine's internals (syllable composition, dictionaries,
  candidate ranking) and the keyboard layouts. They are foreign code and are
  the `Chewing.Engine` parameter. Keyboard mapping is folded into the editor
  keys.
- Release-build arithmetic is not modelled. Of debug-build `usize`
  arithmetic the model keeps only the underflow panics (`Panic(Underflow)`);
  release builds wrap around instead.
- Overflow checks are not modelled; only underflow panics are. The sums and
  products `page * max_candidates + index` (src/main.rs:156, 396, 516),
  `page + 1` (src/main.rs:385) and `index + 1` (src/main.rs:338, 340) are
  unbounded here. Overflowing them takes an `UpdatePopup` with page or slot
  values near 2^64.
- The `Err` path of `total_page().unwrap()` (src/main.rs:366) is not
  modelled, because the editor interface reports a page count directly. An error from
  `all_candidates` reads as an empty list, as `unwrap_or_default` gives.
- iced `Command` semantics (batching, scheduling, delivery to the
  compositor) are not modelled. A command is the ordered list of requests it
  carries.
- `UpdatePopup` is modelled as the plain assignment of page and slot it
  makes (src/main.rs:507-511). The view sends the column number
  (src/main.rs:564), not the page number, but the widget that sends it is
  not part of this model.
- ImeProperties.LemmaRightKeepsWindow: stated only below page 7. From page
  7 the source's window arithmetic goes wrong, as
  `ImeProperties.LemmaRightWindowGoesStale` shows.
- ImeProperties.LemmaLeftKeepsWindow: stated only up to page 8. From page
  12 the source's window arithmetic goes wrong, as
  `ImeProperties.LemmaLeftFromTwelfthPage` shows.
- ImeProperties.LemmaPreeditCursor: the `as i32` cast is stated as the
  identity only below 2^31 bytes. Above that, `Ime.AsI32` gives the wrapped
  value.

=== FILE: chewing.dfy ===
/** The chewing editor as the controller sees it: an opaque state `E` and the
handful of queries and commands the controller calls. The conversion engine
itself (syllable composition, dictionaries, candidate ranking) is a parameter
of the model, not part of it.
 */
module Chewing {
  import opened Utf8

  /** The editor keys `keyboard.map(KeyCode::…)` produces for the controller. */
  datatype KeyCode = Backspace | Space | Enter | Esc | Del | Left | Right | Down | Up | Tab

  /** A key as the editor receives it: mapped from a key code (optionally with
      shift held), or from an ASCII byte (`map_ascii`). */
  datatype EditorKey =
    | Mapped(code: KeyCode)
    | MappedShift(code: KeyCode)
    | MappedAscii(b: byte)

  /** The editor's interface. `allCandidates` already folds `unwrap_or_default`
      (an engine error reads as no candidates); `select` ignores its error result
      as the controller does. */
  datatype Engine<!E> = Engine(
    display: E -> string,
    syllableBuffer: E -> string,
    cursor: E -> nat,
    allCandidates: E -> seq<string>,
    totalPage: E -> nat,
    select: (E, nat) -> E,
    processKey: (E, EditorKey) -> E
  )

  /** `Chewing::preedit` (src/main.rs:70-72): the converted text followed by the pending syllable. */
  function Preedit<E>(eng: Engine<E>, e: E): (p: string)
    ensures |p| == |eng.display(e)| + |eng.syllableBuffer(e)|
    ensures p[..|eng.display(e)|] == eng.display(e)
    ensures p[|eng.display(e)|..] == eng.syllableBuffer(e)
  {
    eng.display(e) + eng.syllableBuffer(e)
  }

  /** `map_ascii(char as u8)`: the `as u8` cast keeps only the low 8 bits of the code point. */
  function AsciiKey(c: char): (k: EditorKey)
    ensures k.MappedAscii?
    ensures c as int < 0x100 ==> k.b as int == c as int
    ensures (k.b as int - c as int) % 0x100 == 0
  {
    MappedAscii((c as int % 0x100) as byte)
  }

  /** The assumption the controller relies on whenever it transcodes a fresh pre-edit:
      the editor's cursor lies within its own pre-edit. */
  ghost predicate CursorWithinPreedit<E(!new)>(eng: Engine<E>) {
    forall e :: eng.cursor(e) <= |Preedit(eng, e)|
  }
}

=== FILE: events.dfy ===
/** What the compositor delivers to the controller (keyboard and activation
events of the Wayland input-method protocol) and what the controller sends
back (input-method requests, popup visibility, virtual-keyboard forwarding).
 */
module Events {
  import opened Outcomes

  /** The named keys the controller distinguishes; every other named key is `OtherNamed`. */
  datatype NamedKey =
    | Backspace | Space | Enter | Escape | Delete
    | ArrowLeft | ArrowRight | ArrowDown | ArrowUp
    | Tab | Shift
    | OtherNamed(id: nat)

  /** The logical key of an event: a named key or the text the key produces. */
  datatype Key = Named(name: NamedKey) | Character(text: string) | Unidentified

  /** The raw key event: the hardware code (forwarded untouched) and its UTF-8 text, if any. */
  datatype KeyEvent = KeyEvent(rawCode: nat, utf8: Option<string>)

  /** The only modifier the controller reads is shift. */
  datatype ModifierState = ModifierState(shift: bool)

  /** The raw xkb modifier masks, forwarded untouched. */
  datatype RawModifiers = RawModifiers(depressed: nat, latched: nat, locked: nat, group: nat)

  datatype Message =
    | Activate
    | Deactivate
    | KeyPressed(event: KeyEvent, key: Key, mods: ModifierState)
    | KeyReleased(event: KeyEvent, key: Key, mods: ModifierState)
    | Modifiers(mods: ModifierState, raw: RawModifiers)
    | UpdatePopup(page: nat, index: nat)
    | ClosePopup
    | Done

  /** Requests to the compositor, in the order the controller batches them. */
  datatype Action =
    | SetPreedit(text: string, cursorBegin: int, cursorEnd: int)
    | Commit
    | CommitString(text: string)
    | ShowPopup
    | HidePopup
    | ForwardKey(event: KeyEvent)
    | ForwardRelease(event: KeyEvent)
    | ForwardModifiers(raw: RawModifiers)

  /** `key_event.utf8.as_ref().and_then(|s| s.chars().last())`. */
  function LastChar(ev: KeyEvent): (c: Option<char>)
    ensures c.Some? <==> ev.utf8.Some? && |ev.utf8.value| > 0
    ensures c.Some? ==> c.value == ev.utf8.value[|ev.utf8.value| - 1]
  {
    match ev.utf8
    case Some(s) => if |s| == 0 then None else Some(s[|s| - 1])
    case None => None
  }
}

=== FILE: ime.dfy ===
/** The input-method session controller of src/main.rs: the `InputMethod`
record, its helper operations and `Application::update` as a pure step from a
session and a message to the next session and the requests it sends.

Every operation returns a `Result`: `Panic` where the Rust code would panic
(checked `usize` subtraction below zero, a slice out of range), `Ok` with the
next session and the batched requests otherwise.
 */
module Ime {
  import opened Outcomes
  import opened Utf8
  import opened Paging
  import opened Events
  import opened Chewing

  /** `max_pages` is set once by `Application::new` (src/main.rs:212) and never
      changed afterwards; `max_candidates` is `Paging.MaxCandidates`. */
  const MaxPages: nat := 4

  datatype State = PreEdit | Popup | WaitingForDone | PassThrough

  /** The session record (src/main.rs:75-90) minus the two constants above.
      `editor` is the chewing editor's state; the keyboard layout is folded
      into the editor keys. */
  datatype InputMethod<E> = InputMethod(
    page: nat,
    index: nat,
    editor: E,
    state: State,
    candidates: seq<string>,
    currentPreedit: string,
    cursorPosition: nat,
    preeditLen: nat,
    pages: seq<seq<string>>,
    popup: bool,
    shiftSet: bool,
    passthroughMode: bool
  )

  /** The next session and the requests batched into the returned `Command`, in order. */
  datatype Update<E> = Update(next: InputMethod<E>, actions: seq<Action>)

  /** `Application::new` around an editor built elsewhere (src/main.rs:199-219). */
  function Initial<E>(editor: E): (im: InputMethod<E>)
    ensures im.editor == editor
    ensures im.state == PassThrough && !im.popup && !im.shiftSet && !im.passthroughMode
    ensures im.candidates == [] && im.pages == [] && im.currentPreedit == []
    ensures im.page == 0 && im.index == 0 && im.cursorPosition == 0 && im.preeditLen == 0
  {
    InputMethod(0, 0, editor, PassThrough, [], [], 0, 0, [], false, false, false)
  }

  /** `usize as i32`: keep the low 32 bits and read them as two's complement. */
  function AsI32(n: nat): (v: int)
    ensures -0x8000_0000 <= v < 0x8000_0000
    ensures (v - n) % 0x1_0000_0000 == 0
    ensures n < 0x8000_0000 ==> v == n
  {
    var low := n % 0x1_0000_0000;
    if low < 0x8000_0000 then low else low - 0x1_0000_0000
  }

  /** The pre-edit request pair: `SetPreeditString` with an empty selection at the cursor, then `Commit`. */
  function PreeditRequest(text: string, cursor: nat): seq<Action> {
    [SetPreedit(text, AsI32(cursor), AsI32(cursor)), Commit]
  }

  /** Hand one key to the editor. */
  function Feed<E>(eng: Engine<E>, im: InputMethod<E>, k: EditorKey): InputMethod<E> {
    im.(editor := eng.processKey(im.editor, k))
  }

  /** `set_cursor_position` (src/main.rs:93-99): transcode the editor cursor into
      a byte offset of `current_preedit`; slicing past the last char panics. */
  function SetCursorPosition<E>(eng: Engine<E>, im: InputMethod<E>): (r: Result<InputMethod<E>>)
    ensures r.Ok? <==> eng.cursor(im.editor) <= |im.currentPreedit|
    ensures r.Panic? ==> r.fault == SliceOutOfRange
    ensures r.Ok? ==>
      r.value == im.(cursorPosition := |Encode(im.currentPreedit[..eng.cursor(im.editor)])|)
    ensures r.Ok? ==> IsCharBoundary(Encode(im.currentPreedit), r.value.cursorPosition)
  {
    var k := eng.cursor(im.editor);
    if k > |im.currentPreedit| then Panic(SliceOutOfRange)
    else
      LemmaOffsetOnBoundary(im.currentPreedit, k);
      Ok(im.(cursorPosition := ByteOffset(im.currentPreedit, k)))
  }

  /** `preedit_string` (src/main.rs:101-115): record the editor's pre-edit and its
      byte length, wait for the compositor, and send the pre-edit with the cursor. */
  function PreeditString<E>(eng: Engine<E>, im: InputMethod<E>): (r: Result<Update<E>>)
    ensures var p := Preedit(eng, im.editor);
      var k := eng.cursor(im.editor);
      && (r.Ok? <==> k <= |p|)
      && (r.Ok? ==>
            var c := |Encode(p[..k])|;
            && r.value.next == im.(state := WaitingForDone, currentPreedit := p,
                                   preeditLen := |Encode(p)|, cursorPosition := c)
            && r.value.actions == [SetPreedit(p, AsI32(c), AsI32(c)), Commit])
  {
    var p := Preedit(eng, im.editor);
    var im1 := im.(preeditLen := |Encode(p)|, currentPreedit := p, state := WaitingForDone);
    var im2 :- SetCursorPosition(eng, im1);
    Ok(Update(im2, PreeditRequest(p, im2.cursorPosition)))
  }

  /** `commit_string` (src/main.rs:117-127): commit the pre-edit as text, let the
      editor commit too, and fall back to pass-through. */
  function CommitPreedit<E>(eng: Engine<E>, im: InputMethod<E>): (u: Update<E>)
    ensures u.actions == [CommitString(Preedit(eng, im.editor)), Commit]
    ensures u.next.state == PassThrough
    ensures u.next.editor == eng.processKey(im.editor, Mapped(KeyCode.Enter))
    ensures u.next == im.(state := PassThrough, editor := u.next.editor)
  {
    var text := Preedit(eng, im.editor);
    Update(Feed(eng, im, Mapped(KeyCode.Enter)).(state := PassThrough), [CommitString(text), Commit])
  }

  /** The first page of a freshly fetched candidate list, as the only page of the popup. */
  function FirstWindow(cands: seq<string>): (pages: seq<seq<string>>)
    ensures pages == [PageAt(cands, 0)]
  {
    [cands[0 .. Min(MaxCandidates, |cands|)]]
  }

  /** `open_popup` (src/main.rs:129-150): ask the editor for candidates and show
      their first page once the compositor is done. The pre-edit sent is the one
      from before the key, and the cursor is transcoded against `current_preedit`.
      An empty candidate list is not rejected. */
  function OpenPopup<E>(eng: Engine<E>, im: InputMethod<E>): (r: Result<Update<E>>)
    ensures var e1 := eng.processKey(im.editor, Mapped(Down));
      && (r.Ok? <==> eng.cursor(e1) <= |im.currentPreedit|)
      && (r.Ok? ==>
            var n := r.value.next;
            && n.state == WaitingForDone && n.popup
            && n.page == 0 && n.index == 0
            && n.editor == e1
            && n.candidates == eng.allCandidates(e1)
            && n.pages == [PageAt(n.candidates, 0)]
            && n.cursorPosition == |Encode(im.currentPreedit[..eng.cursor(e1)])|
            && n == im.(editor := e1, candidates := n.candidates, state := WaitingForDone, popup := true,
                        cursorPosition := n.cursorPosition, index := 0, page := 0, pages := n.pages)
            && r.value.actions == PreeditRequest(Preedit(eng, im.editor), n.cursorPosition))
  {
    var preedit := Preedit(eng, im.editor);
    var e1 := eng.processKey(im.editor, Mapped(Down));
    var cands := eng.allCandidates(e1);
    var im1 := im.(editor := e1, candidates := cands, state := WaitingForDone, popup := true);
    var im2 :- SetCursorPosition(eng, im1);
    Ok(Update(im2.(index := 0, page := 0, pages := FirstWindow(cands)),
              PreeditRequest(preedit, im2.cursorPosition)))
  }

  /** `num_select` (src/main.rs:152-170), also the popup's Enter (392-410) and
      `ClosePopup` (512-530): select flat candidate `page * max_candidates + slot`,
      close the popup and send the new pre-edit. The editor's error is ignored. */
  function NumSelect<E>(eng: Engine<E>, im: InputMethod<E>, slot: nat): (r: Result<Update<E>>)
    ensures var e1 := eng.select(im.editor, FlatIndex(im.page, slot));
      var p := Preedit(eng, e1);
      var k := eng.cursor(e1);
      && (r.Ok? <==> k <= |p|)
      && (r.Ok? ==>
            var c := |Encode(p[..k])|;
            && r.value.next == im.(editor := e1, currentPreedit := p, state := WaitingForDone,
                                   popup := false, cursorPosition := c)
            && r.value.actions == [SetPreedit(p, AsI32(c), AsI32(c)), Commit, HidePopup])
  {
    var e1 := eng.select(im.editor, im.page * MaxCandidates + slot);
    var im1 := im.(editor := e1, currentPreedit := Preedit(eng, e1), state := WaitingForDone, popup := false);
    var im2 :- SetCursorPosition(eng, im1);
    Ok(Update(im2, PreeditRequest(Preedit(eng, e1), im2.cursorPosition) + [HidePopup]))
  }

  /** Escape in the popup (src/main.rs:411-427): leave candidate selection and go
      straight back to pre-edit, hiding the popup. */
  function CancelPopup<E>(eng: Engine<E>, im: InputMethod<E>): (r: Result<Update<E>>)
    ensures var e1 := eng.processKey(im.editor, Mapped(Esc));
      && (r.Ok? <==> eng.cursor(e1) <= |im.currentPreedit|)
      && (r.Ok? ==>
            && r.value.next.cursorPosition == |Encode(im.currentPreedit[..eng.cursor(e1)])|
            && r.value.next == im.(editor := e1, state := PreEdit, popup := false,
                                   cursorPosition := r.value.next.cursorPosition)
            && r.value.actions == PreeditRequest(Preedit(eng, e1), r.value.next.cursorPosition) + [HidePopup])
  {
    var e1 := eng.processKey(im.editor, Mapped(Esc));
    var im1 := im.(editor := e1, state := PreEdit, popup := false);
    var im2 :- SetCursorPosition(eng, im1);
    Ok(Update(im2, PreeditRequest(Preedit(eng, e1), im2.cursorPosition) + [HidePopup]))
  }

  /** ArrowDown past the last slot: the editor moves to its next candidate batch,
      whose first page is shown from its first slot (src/main.rs:326-335). */
  function Refetch<E>(eng: Engine<E>, im: InputMethod<E>): (n: InputMethod<E>)
    ensures n.editor == eng.processKey(im.editor, Mapped(Down))
    ensures n.candidates == eng.allCandidates(n.editor)
    ensures n.page == 0 && n.index == 0 && n.pages == [PageAt(n.candidates, 0)]
    ensures n == im.(editor := n.editor, candidates := n.candidates, index := 0, page := 0, pages := n.pages)
  {
    var e1 := eng.processKey(im.editor, Mapped(Down));
    var cands := eng.allCandidates(e1);
    im.(editor := e1, candidates := cands, index := 0, page := 0, pages := FirstWindow(cands))
  }

  /** ArrowDown in the popup (src/main.rs:320-343). `min(len, max_candidates) - 1`,
      `total_pages - 1` and `len % max_candidates - 1` are `usize` subtractions. */
  function PopupDown<E>(eng: Engine<E>, im: InputMethod<E>): (r: Result<Update<E>>)
    ensures r.Ok? ==> r.value.actions == []
    ensures r.Panic? ==> r.fault == Underflow
    ensures |im.candidates| == 0 ==> r.Panic?
    ensures r.Ok? ==>
      || r.value.next == Refetch(eng, im)
      || r.value.next == im.(index := r.value.next.index)
    ensures |im.candidates| > 0 && im.index + 1 == Min(|im.candidates|, MaxCandidates) ==>
      r == Ok(Update(Refetch(eng, im), []))
  {
    var total := eng.totalPage(im.editor);
    var len := |im.candidates|;
    var full := Min(len, MaxCandidates);
    if full == 0 then Panic(Underflow)
    else if im.index == full - 1 then Ok(Update(Refetch(eng, im), []))
    else if total == 0 then Panic(Underflow)
    else if im.page == total - 1 then
      if len % MaxCandidates == 0 then Panic(Underflow)
      else if im.index == len % MaxCandidates - 1 then Ok(Update(Refetch(eng, im), []))
      else Ok(Update(im.(index := Min(len % MaxCandidates, im.index + 1)), []))
    else Ok(Update(im.(index := im.index + 1), []))
  }

  /** ArrowUp in the popup (src/main.rs:344-347): `saturating_sub(1)` on the slot. */
  function PopupUp<E>(im: InputMethod<E>): (u: Update<E>)
    ensures u.actions == []
    ensures u.next.index <= im.index
    ensures im.index > 0 ==> u.next.index + 1 == im.index
    ensures u.next == im.(index := u.next.index)
  {
    Update(im.(index := if im.index == 0 then 0 else im.index - 1), [])
  }

  /** ArrowLeft in the popup (src/main.rs:348-364): on a page that starts a window,
      rebuild the previous window from full pages, then step back one page. */
  function PopupLeft<E>(im: InputMethod<E>): (r: Result<Update<E>>)
    ensures r.Panic? ==> r.fault == SliceOutOfRange
    ensures r.Ok? ==> r.value.actions == []
    ensures r.Ok? ==> r.value.next.page == if im.page == 0 then 0 else im.page - 1
    ensures r.Ok? ==> r.value.next == im.(page := r.value.next.page, pages := r.value.next.pages)
    ensures im.page != 0 && im.page % MaxPages == 0 ==>
      var w := ExactWindow(im.candidates, (im.page / (MaxPages - 1) - 1) * MaxPages, MaxPages);
      && (r.Ok? <==> w.Ok?)
      && (r.Ok? ==> r.value.next.pages == w.value)
    ensures !(im.page != 0 && im.page % MaxPages == 0) ==> r.Ok? && r.value.next.pages == im.pages
  {
    var moved := if im.page == 0 then 0 else im.page - 1;
    if im.page != 0 && im.page % MaxPages == 0 then
      var window := im.page / (MaxPages - 1) - 1;
      var rows :- ExactWindow(im.candidates, window * MaxPages, MaxPages);
      Ok(Update(im.(pages := rows, page := moved), []))
    else
      Ok(Update(im.(page := moved), []))
  }

  /** The window ArrowRight rebuilds from page 0 or page `max_pages - 1`
      (src/main.rs:367-384): window `page / (max_pages - 1)`, as many of its pages
      as the editor reports. */
  function RebuildRight<E>(im: InputMethod<E>, total: nat): (r: Result<InputMethod<E>>)
    ensures total < im.page / (MaxPages - 1) * MaxPages ==> r == Panic(Underflow)
    ensures r.Ok? ==> r.value == im.(pages := r.value.pages)
    ensures r.Ok? ==>
      var first := im.page / (MaxPages - 1) * MaxPages;
      && |r.value.pages| == Min(total - first, MaxPages)
      && forall i :: 0 <= i < |r.value.pages| ==>
           (first + i) * MaxCandidates <= |im.candidates|
           && r.value.pages[i] == PageAt(im.candidates, first + i)
  {
    var window := im.page / (MaxPages - 1);
    if total < MaxPages * window then Panic(Underflow)
    else
      var rows :- ClampedWindow(im.candidates, window * MaxPages,
                                Min(total - MaxPages * window, MaxPages));
      Ok(im.(pages := rows))
  }

  /** ArrowRight in the popup (src/main.rs:365-391): advance one page, never past
      the editor's last page, and clamp the slot on the last page. */
  function PopupRight<E>(eng: Engine<E>, im: InputMethod<E>): (r: Result<Update<E>>)
    ensures r.Ok? ==> r.value.actions == []
    ensures eng.totalPage(im.editor) == 0 ==> r.Panic?
    ensures r.Ok? ==> r.value.next.page < eng.totalPage(im.editor)
    ensures r.Ok? ==> r.value.next.page == Min(im.page + 1, eng.totalPage(im.editor) - 1)
    ensures r.Ok? && r.value.next.page == eng.totalPage(im.editor) - 1 ==>
      r.value.next.index <= im.index && r.value.next.index < |im.candidates| % MaxCandidates
    ensures r.Ok? ==>
      r.value.next.index == if r.value.next.page == eng.totalPage(im.editor) - 1
                            then Min(im.index, |im.candidates| % MaxCandidates - 1) else im.index
    ensures r.Ok? ==>
      if eng.totalPage(im.editor) > 1 && (im.page == 0 || im.page == MaxPages - 1)
      then RebuildRight(im, eng.totalPage(im.editor)).Ok?
           && r.value.next.pages == RebuildRight(im, eng.totalPage(im.editor)).value.pages
      else r.value.next.pages == im.pages
    ensures r.Ok? ==>
      r.value.next == im.(page := r.value.next.page, index := r.value.next.index, pages := r.value.next.pages)
  {
    var total := eng.totalPage(im.editor);
    var len := |im.candidates|;
    var rebuilt :- if total > 1 && (im.page == MaxPages - 1 || im.page == 0)
                   then RebuildRight(im, total) else Ok(im);
    if total == 0 then Panic(Underflow)
    else
      var page := Min(im.page + 1, total - 1);
      if page != total - 1 then Ok(Update(rebuilt.(page := page), []))
      else if len % MaxCandidates == 0 then Panic(Underflow)
      else Ok(Update(rebuilt.(page := page, index := Min(im.index, len % MaxCandidates - 1)), []))
  }

  /** KeyPressed in the popup (src/main.rs:309-429): the popup either stays open
      and nothing is sent, or it closes with `HidePopup` as the last request. */
  function PopupKey<E>(eng: Engine<E>, im: InputMethod<E>, key: Key): (r: Result<Update<E>>)
    requires im.state == Popup
    ensures r.Ok? && r.value.next.state == Popup ==>
      r.value.actions == [] && r.value.next.popup == im.popup
    ensures r.Ok? && r.value.next.state != Popup ==>
      && !r.value.next.popup
      && (r.value.next.state == WaitingForDone || r.value.next.state == PreEdit)
      && |r.value.actions| > 0 && r.value.actions[|r.value.actions| - 1] == HidePopup
    ensures || (key.Character? && ShortcutSlot(key.text).None?)
            || key.Unidentified?
            || (key.Named? && key.name !in {ArrowDown, ArrowUp, ArrowLeft, ArrowRight, NamedKey.Enter, Escape})
            ==> r == Ok(Update(im, []))
  {
    match key
    case Character(t) =>
      (match ShortcutSlot(t)
       case Some(slot) => NumSelect(eng, im, slot)
       case None => Ok(Update(im, [])))
    case Named(n) =>
      (match n
       case ArrowDown => PopupDown(eng, im)
       case ArrowUp => Ok(PopupUp(im))
       case ArrowLeft => PopupLeft(im)
       case ArrowRight => PopupRight(eng, im)
       case Enter => NumSelect(eng, im, im.index)
       case Escape => CancelPopup(eng, im)
       case _ => Ok(Update(im, [])))
    case Unidentified => Ok(Update(im, []))
  }

  /** The editor key each editing key of the pre-edit state sends before the
      pre-edit is refreshed (src/main.rs:240-297); Enter and ArrowDown are handled apart. */
  function EditingKey(n: NamedKey, mods: ModifierState): Option<EditorKey> {
    match n
    case Backspace => Some(Mapped(KeyCode.Backspace))
    case Space => Some(if mods.shift then MappedShift(KeyCode.Space) else Mapped(KeyCode.Space))
    case Escape => Some(Mapped(Esc))
    case Delete => Some(Mapped(Del))
    case ArrowLeft => Some(Mapped(Left))
    case ArrowRight => Some(Mapped(Right))
    case ArrowUp => Some(Mapped(Up))
    case Tab => Some(Mapped(KeyCode.Tab))
    case _ => None
  }

  /** KeyPressed while composing (src/main.rs:239-308): Enter commits, ArrowDown
      opens the popup, and every other key either refreshes the pre-edit or
      changes nothing at all. */
  function PreEditKey<E>(eng: Engine<E>, im: InputMethod<E>, ev: KeyEvent, key: Key, mods: ModifierState)
    : (r: Result<Update<E>>)
    ensures key == Named(NamedKey.Enter) ==> r == Ok(CommitPreedit(eng, im))
    ensures key == Named(ArrowDown) ==> r == OpenPopup(eng, im)
    ensures r.Ok? && key != Named(NamedKey.Enter) && r.value.actions != [] ==>
      r.value.next.state == WaitingForDone && r.value.actions[0].SetPreedit?
    ensures r.Ok? && r.value.actions == [] ==> r.value == Update(im, [])
  {
    if key == Named(NamedKey.Enter) then Ok(CommitPreedit(eng, im))
    else if key == Named(ArrowDown) then OpenPopup(eng, im)
    else if key.Named? && EditingKey(key.name, mods).Some? then
      PreeditString(eng, Feed(eng, im, EditingKey(key.name, mods).value))
    else
      match LastChar(ev)
      case Some(c) => PreeditString(eng, Feed(eng, im, AsciiKey(c)))
      case None => Ok(Update(im, []))
  }

  /** KeyPressed in pass-through (src/main.rs:435-475): keys go to the compositor
      unless they start a composition; a shift press arms the mode latch and any
      other key disarms it. */
  function PassThroughKey<E>(eng: Engine<E>, im: InputMethod<E>, ev: KeyEvent, key: Key, mods: ModifierState)
    : (r: Result<Update<E>>)
    ensures r.Ok? ==> r.value.next.passthroughMode == im.passthroughMode
    ensures r.Ok? ==> (r.value.next.shiftSet <==> key == Named(Shift))
    ensures im.passthroughMode && key != Named(Shift) ==>
      r == Ok(Update(im.(shiftSet := false), [ForwardKey(ev)]))
    ensures r.Ok? && r.value.next.state != im.state ==>
      r.value.next.state == WaitingForDone && r.value.actions != [] && r.value.actions[0].SetPreedit?
    ensures r.Ok? && key != Named(Shift) && r.value.next.state == PassThrough
            && !(!im.passthroughMode && key == Named(NamedKey.Space) && mods.shift) ==>
      r.value.actions == [ForwardKey(ev)]
    ensures !im.passthroughMode && key == Named(NamedKey.Space) && mods.shift ==>
      r == Ok(Update(Feed(eng, im.(shiftSet := false), MappedShift(KeyCode.Space)), []))
    ensures !im.passthroughMode && key != Named(Shift) && key != Named(NamedKey.Space) && LastChar(ev).None? ==>
      r == Ok(Update(im.(shiftSet := false), [ForwardKey(ev)]))
  {
    if im.passthroughMode then
      if key == Named(Shift) then Ok(Update(im.(shiftSet := true), []))
      else Ok(Update(im.(shiftSet := false), [ForwardKey(ev)]))
    else if key == Named(Shift) then Ok(Update(im.(shiftSet := true), []))
    else if key == Named(NamedKey.Space) then
      if mods.shift then Ok(Update(Feed(eng, im.(shiftSet := false), MappedShift(KeyCode.Space)), []))
      else Ok(Update(im.(shiftSet := false), [ForwardKey(ev)]))
    else
      match LastChar(ev)
      case Some(c) =>
        var im1 := Feed(eng, im.(shiftSet := false), AsciiKey(c));
        if Preedit(eng, im1.editor) == [] then Ok(Update(im1, [ForwardKey(ev)]))
        else PreeditString(eng, im1)
      case None => Ok(Update(im.(shiftSet := false), [ForwardKey(ev)]))
  }

  /** KeyReleased (src/main.rs:477-488): a shift release with the latch armed
      flips pass-through mode; other releases in pass-through are forwarded. */
  function KeyRelease<E>(im: InputMethod<E>, ev: KeyEvent, key: Key): (u: Update<E>)
    ensures u.next == im.(shiftSet := u.next.shiftSet, passthroughMode := u.next.passthroughMode)
    ensures u.next.passthroughMode != im.passthroughMode <==>
      im.state == PassThrough && key == Named(Shift) && im.shiftSet
    ensures u.actions == [] || u.actions == [ForwardRelease(ev)]
    ensures u.actions != [] <==> im.state == PassThrough && !(key == Named(Shift) && im.shiftSet)
    ensures im.state != PassThrough ==> u == Update(im, [])
  {
    match im.state
    case PassThrough =>
      if key == Named(Shift) && im.shiftSet then
        Update(im.(shiftSet := false, passthroughMode := !im.passthroughMode), [])
      else
        Update(im, [ForwardRelease(ev)])
    case _ => Update(im, [])
  }

  /** The compositor's `done` (src/main.rs:492-506). */
  function OnDone<E>(im: InputMethod<E>): (u: Update<E>)
    ensures u.next == im.(state := u.next.state)
    ensures u.actions == [] || u.actions == [ShowPopup]
    ensures ShowPopup in u.actions <==> im.state == WaitingForDone && im.popup
    ensures im.state == WaitingForDone ==> u.next.state != WaitingForDone
    ensures im.state != WaitingForDone ==> u == Update(im, [])
  {
    match im.state
    case WaitingForDone =>
      if im.popup then Update(im.(state := Popup), [ShowPopup])
      else if im.currentPreedit != [] then Update(im.(state := PreEdit), [])
      else Update(im.(state := PassThrough), [])
    case _ => Update(im, [])
  }

  /** Deactivate (src/main.rs:231-237): escape the editor, pass keys through, hide the popup. */
  function Deactivated<E>(eng: Engine<E>, im: InputMethod<E>): (u: Update<E>)
    ensures u.actions == [HidePopup]
    ensures u.next.state == PassThrough
    ensures u.next.popup == im.popup
    ensures u.next == im.(editor := eng.processKey(im.editor, Mapped(Esc)), state := PassThrough)
  {
    Update(Feed(eng, im, Mapped(Esc)).(state := PassThrough), [HidePopup])
  }

  /** Every `SetPreeditString` comes with an empty selection and is immediately
      followed by `Commit`, and a batch shows the popup at most once. */
  ghost predicate WellFormedBatch(actions: seq<Action>) {
    && (forall i :: 0 <= i < |actions| && actions[i].SetPreedit? ==>
          actions[i].cursorBegin == actions[i].cursorEnd
          && i + 1 < |actions| && actions[i + 1] == Commit)
    && (forall i, j :: 0 <= i < j < |actions| ==> !(actions[i] == ShowPopup && actions[j] == ShowPopup))
  }

  /** `Application::update` (src/main.rs:225-532). Only key presses and
      `ClosePopup` can panic; activation, modifiers and popup updates only set
      what they name. */
  function Step<E>(eng: Engine<E>, im: InputMethod<E>, msg: Message): (r: Result<Update<E>>)
    ensures r.Panic? ==> msg.KeyPressed? || msg == ClosePopup
    ensures msg == Activate ==> r == Ok(Update(im.(state := PassThrough), []))
    ensures msg.Modifiers? ==> r == Ok(Update(im, [ForwardModifiers(msg.raw)]))
    ensures msg.UpdatePopup? ==> r == Ok(Update(im.(page := msg.page, index := msg.index), []))
  {
    match msg
    case Activate => Ok(Update(im.(state := PassThrough), []))
    case Deactivate => Ok(Deactivated(eng, im))
    case KeyPressed(ev, key, mods) =>
      (match im.state
       case PreEdit => PreEditKey(eng, im, ev, key, mods)
       case Popup => PopupKey(eng, im, key)
       case WaitingForDone => Ok(Update(im, []))
       case PassThrough => PassThroughKey(eng, im, ev, key, mods))
    case KeyReleased(ev, key, _) => Ok(KeyRelease(im, ev, key))
    case Modifiers(_, raw) => Ok(Update(im, [ForwardModifiers(raw)]))
    case Done => Ok(OnDone(im))
    case UpdatePopup(page, index) => Ok(Update(im.(page := page, index := index), []))
    case ClosePopup => NumSelect(eng, im, im.index)
  }
}

=== FILE: ime_properties.dfy ===
/** Properties of the controller: the shape of every request batch, the
pre-edit cursor, the done handshake, key dropping while waiting, candidate
selection, popup navigation bounds, the pass-through latch, deactivation, the
invariants steps keep, and the places where the source as written goes wrong.
 */
module ImeProperties {
  import opened Outcomes
  import opened Utf8
  import opened Paging
  import opened Events
  import opened Chewing
  import opened Ime

  // ---------------------------------------------------------------- batches

  lemma LemmaPreeditRequestShape(text: string, c: nat)
    ensures WellFormedBatch(PreeditRequest(text, c))
    ensures WellFormedBatch(PreeditRequest(text, c) + [HidePopup])
    ensures ShowPopup !in PreeditRequest(text, c)
    ensures ShowPopup !in PreeditRequest(text, c) + [HidePopup]
  {
    assert PreeditRequest(text, c) + [HidePopup] == [SetPreedit(text, AsI32(c), AsI32(c)), Commit, HidePopup];
  }

  /** What every key handler keeps: well-formed batches that never show the popup,
      the pass-through mode, and the popup flag whenever the popup state is entered. */
  ghost predicate KeyOutcome<E>(im: InputMethod<E>, r: Result<Update<E>>) {
    r.Ok? ==>
      && WellFormedBatch(r.value.actions)
      && ShowPopup !in r.value.actions
      && r.value.next.passthroughMode == im.passthroughMode
      && (PopupFlagged(im) ==> PopupFlagged(r.value.next))
  }

  /** The candidate list changes only when the editor is asked for a fresh batch. */
  ghost predicate FetchesOnlyOnDown<E>(eng: Engine<E>, im: InputMethod<E>, key: Key, r: Result<Update<E>>) {
    r.Ok? && r.value.next.candidates != im.candidates ==>
      key == Named(ArrowDown)
      && r.value.next.candidates == eng.allCandidates(eng.processKey(im.editor, Mapped(Down)))
  }

  lemma LemmaPreeditStringOutcome<E>(eng: Engine<E>, im: InputMethod<E>)
    ensures KeyOutcome(im, PreeditString(eng, im))
    ensures var r := PreeditString(eng, im); r.Ok? ==> r.value.next.candidates == im.candidates
  {
    var r := PreeditString(eng, im);
    if r.Ok? {
      LemmaPreeditRequestShape(Preedit(eng, im.editor), r.value.next.cursorPosition);
    }
  }

  lemma LemmaNumSelectOutcome<E>(eng: Engine<E>, im: InputMethod<E>, slot: nat)
    ensures KeyOutcome(im, NumSelect(eng, im, slot))
    ensures var r := NumSelect(eng, im, slot); r.Ok? ==> r.value.next.candidates == im.candidates
  {
    var r := NumSelect(eng, im, slot);
    if r.Ok? {
      var p := Preedit(eng, eng.select(im.editor, FlatIndex(im.page, slot)));
      LemmaPreeditRequestShape(p, r.value.next.cursorPosition);
    }
  }

  lemma LemmaPreEditKeyOutcome<E>(eng: Engine<E>, im: InputMethod<E>, ev: KeyEvent, key: Key, mods: ModifierState)
    requires im.state == PreEdit
    ensures KeyOutcome(im, PreEditKey(eng, im, ev, key, mods))
    ensures FetchesOnlyOnDown(eng, im, key, PreEditKey(eng, im, ev, key, mods))
  {
    var r := PreEditKey(eng, im, ev, key, mods);
    if key == Named(NamedKey.Enter) {
    } else if key == Named(ArrowDown) {
      if r.Ok? {
        LemmaPreeditRequestShape(Preedit(eng, im.editor), r.value.next.cursorPosition);
      }
    } else if key.Named? && EditingKey(key.name, mods).Some? {
      LemmaPreeditStringOutcome(eng, Feed(eng, im, EditingKey(key.name, mods).value));
    } else if LastChar(ev).Some? {
      LemmaPreeditStringOutcome(eng, Feed(eng, im, AsciiKey(LastChar(ev).value)));
    }
  }

  lemma LemmaPopupKeyOutcome<E>(eng: Engine<E>, im: InputMethod<E>, key: Key)
    requires im.state == Popup
    ensures KeyOutcome(im, PopupKey(eng, im, key))
    ensures FetchesOnlyOnDown(eng, im, key, PopupKey(eng, im, key))
  {
    var r := PopupKey(eng, im, key);
    match key {
      case Character(t) =>
        if ShortcutSlot(t).Some? {
          LemmaNumSelectOutcome(eng, im, ShortcutSlot(t).value);
        }
      case Named(n) =>
        if n == NamedKey.Enter {
          LemmaNumSelectOutcome(eng, im, im.index);
        } else if n == Escape && r.Ok? {
          var p := Preedit(eng, eng.processKey(im.editor, Mapped(Esc)));
          LemmaPreeditRequestShape(p, r.value.next.cursorPosition);
        }
      case Unidentified =>
    }
  }

  lemma LemmaPassThroughKeyOutcome<E>(eng: Engine<E>, im: InputMethod<E>, ev: KeyEvent, key: Key, mods: ModifierState)
    requires im.state == PassThrough
    ensures KeyOutcome(im, PassThroughKey(eng, im, ev, key, mods))
    ensures var r := PassThroughKey(eng, im, ev, key, mods); r.Ok? ==> r.value.next.candidates == im.candidates
  {
    if !im.passthroughMode && key != Named(Shift) && key != Named(NamedKey.Space) && LastChar(ev).Some? {
      LemmaPreeditStringOutcome(eng, Feed(eng, im.(shiftSet := false), AsciiKey(LastChar(ev).value)));
    }
  }

  lemma LemmaKeyPressedOutcome<E>(eng: Engine<E>, im: InputMethod<E>, ev: KeyEvent, key: Key, mods: ModifierState)
    ensures KeyOutcome(im, Step(eng, im, KeyPressed(ev, key, mods)))
    ensures FetchesOnlyOnDown(eng, im, key, Step(eng, im, KeyPressed(ev, key, mods)))
    ensures var r := Step(eng, im, KeyPressed(ev, key, mods));
      r.Ok? && r.value.next.candidates != im.candidates ==> im.state == PreEdit || im.state == Popup
  {
    match im.state {
      case PreEdit => LemmaPreEditKeyOutcome(eng, im, ev, key, mods);
      case Popup => LemmaPopupKeyOutcome(eng, im, key);
      case WaitingForDone =>
      case PassThrough => LemmaPassThroughKeyOutcome(eng, im, ev, key, mods);
    }
  }

  /** Every batch is well formed: each pre-edit comes with an empty selection and
      is followed by `Commit`; and the popup is shown exactly by `Done` arriving
      while a popup is pending, never twice in a batch. */
  lemma LemmaStepBatch<E>(eng: Engine<E>, im: InputMethod<E>, msg: Message)
    ensures var r := Step(eng, im, msg);
      r.Ok? ==>
        && WellFormedBatch(r.value.actions)
        && (ShowPopup in r.value.actions <==> msg == Done && im.state == WaitingForDone && im.popup)
        && (ShowPopup in r.value.actions ==> r.value.next.state == Popup)
  {
    match msg {
      case KeyPressed(ev, key, mods) => LemmaKeyPressedOutcome(eng, im, ev, key, mods);
      case ClosePopup => LemmaNumSelectOutcome(eng, im, im.index);
      case _ =>
    }
  }

  // ---------------------------------------------------------------- cursor

  /** The cursor sent with a pre-edit update is the UTF-8 transcoding of the
      editor's char cursor: 0 at the start, the full byte length at the end, on a
      char boundary, and it transcodes back to the editor's cursor. */
  lemma LemmaPreeditCursor<E>(eng: Engine<E>, im: InputMethod<E>)
    requires PreeditString(eng, im).Ok?
    ensures var u := PreeditString(eng, im).value;
      var p := Preedit(eng, im.editor);
      var k := eng.cursor(im.editor);
      && u.next.cursorPosition == ByteOffset(p, k)
      && u.next.cursorPosition <= u.next.preeditLen
      && (k == 0 ==> u.next.cursorPosition == 0)
      && (k == |p| ==> u.next.cursorPosition == u.next.preeditLen)
      && IsCharBoundary(Encode(p), u.next.cursorPosition)
      && CharIndex(p, u.next.cursorPosition) == k
      && (u.next.cursorPosition < 0x8000_0000 ==>
            u.actions[0] == SetPreedit(p, u.next.cursorPosition, u.next.cursorPosition))
  {
    var p := Preedit(eng, im.editor);
    var k := eng.cursor(im.editor);
    LemmaOffsetEnds(p);
    LemmaOffsetOnBoundary(p, k);
    LemmaCharIndexOfOffset(p, k);
    if k < |p| {
      LemmaOffsetStrictlyMonotone(p, k, |p|);
    }
  }

  /** With an editor whose cursor stays within its pre-edit, a pre-edit update never panics. */
  lemma LemmaPreeditNeverPanics<E(!new)>(eng: Engine<E>, im: InputMethod<E>)
    requires CursorWithinPreedit(eng)
    ensures PreeditString(eng, im).Ok?
    ensures PreeditString(eng, im).value.next.state == WaitingForDone
  {
    assert eng.cursor(im.editor) <= |Preedit(eng, im.editor)|;
  }

  // ---------------------------------------------------------------- handshake

  /** While waiting for the compositor, key presses and releases are dropped. */
  lemma LemmaWaitingDropsKeys<E>(eng: Engine<E>, im: InputMethod<E>, msg: Message)
    requires im.state == WaitingForDone
    requires msg.KeyPressed? || msg.KeyReleased?
    ensures Step(eng, im, msg) == Ok(Update(im, []))
  {
  }

  /** `Done` resolves the wait: to the popup (shown once) if one is pending, else
      to pre-edit if there is text, else to pass-through; in any other state it is a no-op. */
  lemma LemmaDone<E>(eng: Engine<E>, im: InputMethod<E>)
    ensures var r := Step(eng, im, Done);
      && r.Ok?
      && r.value.next == im.(state := r.value.next.state)
      && (im.state == WaitingForDone && im.popup ==>
            r.value.next.state == Popup && r.value.actions == [ShowPopup])
      && (im.state == WaitingForDone && !im.popup && im.currentPreedit != [] ==>
            r.value.next.state == PreEdit && r.value.actions == [])
      && (im.state == WaitingForDone && !im.popup && im.currentPreedit == [] ==>
            r.value.next.state == PassThrough && r.value.actions == [])
      && (im.state != WaitingForDone ==> r.value == Update(im, []))
  {
  }

  /** Every key that refreshes the pre-edit leaves the session waiting for the compositor. */
  lemma LemmaPreEditKeysWait<E>(eng: Engine<E>, im: InputMethod<E>, ev: KeyEvent, key: Key, mods: ModifierState)
    requires im.state == PreEdit
    requires key != Named(NamedKey.Enter)
    ensures var r := Step(eng, im, KeyPressed(ev, key, mods));
      r.Ok? && r.value.actions != [] ==>
        r.value.next.state == WaitingForDone && r.value.actions[0].SetPreedit?
  {
  }

  /** Each editing key hands its own editor key to the editor before the pre-edit
      is refreshed; shifted Space goes through the shift mapping. */
  lemma LemmaEditingKeysReachEditor<E>(eng: Engine<E>, im: InputMethod<E>, ev: KeyEvent, n: NamedKey,
                                       mods: ModifierState)
    requires im.state == PreEdit
    ensures var r := Step(eng, im, KeyPressed(ev, Named(n), mods));
      && (n == NamedKey.Backspace ==> r == PreeditString(eng, Feed(eng, im, Mapped(KeyCode.Backspace))))
      && (n == NamedKey.Space ==>
            r == PreeditString(eng, Feed(eng, im, if mods.shift then MappedShift(KeyCode.Space)
                                                  else Mapped(KeyCode.Space))))
      && (n == Escape ==> r == PreeditString(eng, Feed(eng, im, Mapped(Esc))))
      && (n == Delete ==> r == PreeditString(eng, Feed(eng, im, Mapped(Del))))
      && (n == ArrowLeft ==> r == PreeditString(eng, Feed(eng, im, Mapped(Left))))
      && (n == ArrowRight ==> r == PreeditString(eng, Feed(eng, im, Mapped(Right))))
      && (n == ArrowUp ==> r == PreeditString(eng, Feed(eng, im, Mapped(Up))))
      && (n == NamedKey.Tab ==> r == PreeditString(eng, Feed(eng, im, Mapped(KeyCode.Tab))))
  {
    assert Step(eng, im, KeyPressed(ev, Named(n), mods)) == PreEditKey(eng, im, ev, Named(n), mods);
  }

  /** Any other key with text hands the low byte of its last char to the editor
      before the pre-edit is refreshed; a key without text does nothing. */
  lemma LemmaPrintableInPreEdit<E>(eng: Engine<E>, im: InputMethod<E>, ev: KeyEvent, key: Key,
                                   mods: ModifierState)
    requires im.state == PreEdit
    requires !key.Named? || key.name.Shift? || key.name.OtherNamed?
    ensures LastChar(ev).Some? ==>
      Step(eng, im, KeyPressed(ev, key, mods)) == PreeditString(eng, Feed(eng, im, AsciiKey(LastChar(ev).value)))
    ensures LastChar(ev).None? ==> Step(eng, im, KeyPressed(ev, key, mods)) == Ok(Update(im, []))
  {
  }

  /** Enter while composing commits the pre-edit text and returns to pass-through. */
  lemma LemmaEnterCommits<E>(eng: Engine<E>, im: InputMethod<E>, ev: KeyEvent, mods: ModifierState)
    requires im.state == PreEdit
    ensures Step(eng, im, KeyPressed(ev, Named(NamedKey.Enter), mods))
         == Ok(CommitPreedit(eng, im))
    ensures Step(eng, im, KeyPressed(ev, Named(NamedKey.Enter), mods)).value.actions
         == [CommitString(Preedit(eng, im.editor)), Commit]
  {
  }

  // ---------------------------------------------------------------- selection

  /** Digit keys, Enter in the popup and `ClosePopup` all select through `num_select`;
      the digit printed beside a slot selects that slot. */
  lemma LemmaSelectionPaths<E>(eng: Engine<E>, im: InputMethod<E>, ev: KeyEvent, mods: ModifierState, slot: nat)
    requires slot < 10
    ensures im.state == Popup ==>
      Step(eng, im, KeyPressed(ev, Character(SlotLabel(slot)), mods)) == NumSelect(eng, im, slot)
    ensures im.state == Popup ==>
      Step(eng, im, KeyPressed(ev, Named(NamedKey.Enter), mods)) == NumSelect(eng, im, im.index)
    ensures Step(eng, im, ClosePopup) == NumSelect(eng, im, im.index)
  {
    LemmaShortcutMatchesLabel(slot, SlotLabel(slot));
  }

  /** The popup shows the current page in column `page % max_pages`. */
  ghost predicate ShowsCurrentPage<E>(im: InputMethod<E>) {
    && im.page * MaxCandidates <= |im.candidates|
    && im.page % MaxPages < |im.pages|
    && im.pages[im.page % MaxPages] == PageAt(im.candidates, im.page)
  }

  /** When the highlighted column shows the current page, the flat index passed to
      the editor addresses exactly the candidate displayed in the chosen slot. */
  lemma LemmaSelectsDisplayedCandidate<E>(im: InputMethod<E>, slot: nat)
    requires ShowsCurrentPage(im)
    requires slot < |im.pages[im.page % MaxPages]|
    ensures FlatIndex(im.page, slot) < |im.candidates|
    ensures im.candidates[FlatIndex(im.page, slot)] == im.pages[im.page % MaxPages][slot]
  {
    LemmaFlatIndexSelects(im.candidates, im.page, slot);
  }

  // ---------------------------------------------------------------- navigation

  /** ArrowUp decrements the slot, saturating at 0, where it changes nothing. */
  lemma LemmaUpSaturates<E>(eng: Engine<E>, im: InputMethod<E>, ev: KeyEvent, mods: ModifierState)
    requires im.state == Popup
    ensures var r := Step(eng, im, KeyPressed(ev, Named(ArrowUp), mods));
      && r.Ok?
      && r.value.next == im.(index := if im.index == 0 then 0 else im.index - 1)
      && r.value.actions == []
      && (im.index == 0 ==> r.value == Update(im, []))
  {
  }

  /** ArrowLeft steps back one page and saturates at page 0, where it changes nothing. */
  lemma LemmaLeftSaturates<E>(eng: Engine<E>, im: InputMethod<E>, ev: KeyEvent, mods: ModifierState)
    requires im.state == Popup
    ensures var r := Step(eng, im, KeyPressed(ev, Named(ArrowLeft), mods));
      && (r.Ok? ==> r.value.next.page == if im.page == 0 then 0 else im.page - 1)
      && (im.page == 0 ==> r == Ok(Update(im, [])))
  {
  }

  /** Every row ArrowRight rebuilds is a page of the candidate list, and it never
      leaves the editor's page range. */
  lemma LemmaRightRowsArePages<E>(eng: Engine<E>, im: InputMethod<E>)
    ensures var r := PopupRight(eng, im);
      && (r.Ok? ==> r.value.next.page < eng.totalPage(im.editor))
      && (r.Ok? && r.value.next.pages != im.pages ==>
            forall i :: 0 <= i < |r.value.next.pages| ==>
              exists p: nat :: p * MaxCandidates <= |im.candidates|
                       && r.value.next.pages[i] == PageAt(im.candidates, p))
  {
    var r := PopupRight(eng, im);
    var total := eng.totalPage(im.editor);
    if r.Ok? && r.value.next.pages != im.pages {
      var rebuilt := RebuildRight(im, total);
      assert rebuilt.Ok? && r.value.next.pages == rebuilt.value.pages;
      var first := im.page / (MaxPages - 1) * MaxPages;
      forall i | 0 <= i < |r.value.next.pages|
        ensures exists p: nat :: p * MaxCandidates <= |im.candidates|
                         && r.value.next.pages[i] == PageAt(im.candidates, p)
      {
        var p := first + i;
        assert p * MaxCandidates <= |im.candidates| && r.value.next.pages[i] == PageAt(im.candidates, p);
      }
    }
  }

  /** In the popup the arrow keys, Enter and Escape go to their handlers. */
  lemma LemmaPopupKeys<E>(eng: Engine<E>, im: InputMethod<E>, ev: KeyEvent, mods: ModifierState)
    requires im.state == Popup
    ensures Step(eng, im, KeyPressed(ev, Named(ArrowRight), mods)) == PopupRight(eng, im)
    ensures Step(eng, im, KeyPressed(ev, Named(ArrowLeft), mods)) == PopupLeft(im)
    ensures Step(eng, im, KeyPressed(ev, Named(ArrowDown), mods)) == PopupDown(eng, im)
    ensures Step(eng, im, KeyPressed(ev, Named(ArrowUp), mods)) == Ok(PopupUp(im))
    ensures Step(eng, im, KeyPressed(ev, Named(Escape), mods)) == CancelPopup(eng, im)
  {
  }

  /** Escape in the popup transcodes against the stale `current_preedit`. When
      Esc leaves the pre-edit text as it was, that is harmless: Escape sends
      exactly what a fresh `preedit_string` of the new editor would, then HidePopup. */
  lemma LemmaCancelAgreesWithRefresh<E>(eng: Engine<E>, im: InputMethod<E>)
    requires Preedit(eng, eng.processKey(im.editor, Mapped(Esc))) == im.currentPreedit
    ensures var refreshed := PreeditString(eng, Feed(eng, im, Mapped(Esc)));
      var r := CancelPopup(eng, im);
      && (r.Ok? <==> refreshed.Ok?)
      && (r.Ok? ==>
            && r.value.actions == refreshed.value.actions + [HidePopup]
            && r.value.next.cursorPosition == refreshed.value.next.cursorPosition
            && r.value.next.editor == refreshed.value.next.editor)
  {
  }

  /** The editor reports as many pages as the candidate list fills. */
  ghost predicate PageCountAgrees<E>(eng: Engine<E>, im: InputMethod<E>) {
    eng.totalPage(im.editor) == PageCount(|im.candidates|)
  }

  /** ArrowDown from a slot inside the current page either moves to the next slot
      of the same page or, from the last slot, fetches the editor's next batch and
      restarts at page 0, slot 0. It panics exactly when the last page is full and
      the slot is not the tenth. */
  lemma LemmaDownStaysOnPage<E>(eng: Engine<E>, im: InputMethod<E>, ev: KeyEvent, mods: ModifierState)
    requires im.state == Popup
    requires PageCountAgrees(eng, im)
    requires im.page < PageCount(|im.candidates|)
    requires im.index < |PageAt(im.candidates, im.page)|
    ensures var r := Step(eng, im, KeyPressed(ev, Named(ArrowDown), mods));
      var n := PageCount(|im.candidates|);
      && (r.Panic? <==>
            im.page == n - 1 && |im.candidates| % MaxCandidates == 0 && im.index != MaxCandidates - 1)
      && (r.Ok? ==>
            if im.index + 1 == |PageAt(im.candidates, im.page)|
            then r.value.next == Refetch(eng, im) && r.value.next.page == 0 && r.value.next.index == 0
            else r.value.next == im.(index := im.index + 1))
  {
    LemmaPageLength(im.candidates, im.page);
    LemmaLastSlotAsWritten(|im.candidates|);
    var n := PageCount(|im.candidates|);
    if im.page + 1 < n {
      LemmaMulSucc(im.page, MaxCandidates);
      LemmaPageStartInRange(|im.candidates|, im.page + 1);
    }
  }

  /** From the last slot of a page ArrowDown fetches the next batch and shows its first page. */
  lemma LemmaDownAtLastSlotRefetches<E>(eng: Engine<E>, im: InputMethod<E>, ev: KeyEvent, mods: ModifierState)
    requires im.state == Popup
    requires |im.candidates| > 0
    requires im.index == Min(|im.candidates|, MaxCandidates) - 1
    ensures var r := Step(eng, im, KeyPressed(ev, Named(ArrowDown), mods));
      var e1 := eng.processKey(im.editor, Mapped(Down));
      && r == Ok(Update(Refetch(eng, im), []))
      && r.value.next.page == 0 && r.value.next.index == 0
      && r.value.next.candidates == eng.allCandidates(e1)
      && r.value.next.pages == [PageAt(eng.allCandidates(e1), 0)]
  {
  }

  // ---------------------------------------------------------------- window invariant

  /** The popup's rows are consecutive pages of the candidate list starting at the
      first page of the current page's window (window = page / max_pages); the row
      for the current page is among them, and the window is complete unless it is
      the single first page `open_popup` shows. */
  ghost predicate WindowOf(cands: seq<string>, page: nat, pages: seq<seq<string>>) {
    var first := page / MaxPages * MaxPages;
    var n := PageCount(|cands|);
    && page < n
    && first <= page
    && (|pages| == Min(n - first, MaxPages) || (page == 0 && |pages| == 1))
    && (forall i :: 0 <= i < |pages| ==>
          (first + i) * MaxCandidates <= |cands|
          && pages[i] == PageAt(cands, first + i))
  }

  ghost predicate ShowsWindow<E>(im: InputMethod<E>) {
    WindowOf(im.candidates, im.page, im.pages)
  }

  /** Moving to another page of the same window keeps the rows valid. */
  lemma LemmaWindowMove(cands: seq<string>, page: nat, q: nat, pages: seq<seq<string>>)
    requires WindowOf(cands, page, pages)
    requires q < PageCount(|cands|)
    requires q / MaxPages == page / MaxPages
    requires page != 0 || q == 0
    ensures WindowOf(cands, q, pages)
  {
  }

  lemma LemmaShowsWindowShowsPage<E>(im: InputMethod<E>)
    requires ShowsWindow(im)
    ensures ShowsCurrentPage(im)
  {
    var first := im.page / MaxPages * MaxPages;
    assert im.page == first + im.page % MaxPages;
  }

  /** `open_popup` on a non-empty candidate list shows the window of page 0. */
  lemma LemmaOpenPopupShowsWindow<E>(eng: Engine<E>, im: InputMethod<E>)
    requires OpenPopup(eng, im).Ok?
    requires eng.allCandidates(eng.processKey(im.editor, Mapped(Down))) != []
    ensures ShowsWindow(OpenPopup(eng, im).value.next)
  {
  }

  /** The rows ArrowRight rebuilds are the window of the page it moves to. */
  lemma LemmaRebuiltRows<E>(im: InputMethod<E>, n: nat, w: seq<seq<string>>)
    requires n == PageCount(|im.candidates|)
    requires im.page == 0 || (im.page == MaxPages - 1 && im.page + 1 < n)
    requires n > 1
    requires RebuildRight(im, n) == Ok(im.(pages := w))
    ensures WindowOf(im.candidates, im.page + 1, w)
  {
    var first := im.page / (MaxPages - 1) * MaxPages;
    assert (im.page + 1) / MaxPages * MaxPages == first;
    assert |w| == Min(n - first, MaxPages)
        && forall i :: 0 <= i < |w| ==>
             (first + i) * MaxCandidates <= |im.candidates| && w[i] == PageAt(im.candidates, first + i);
    LemmaWindowFresh(im.candidates, im.page + 1, w);
  }

  /** ArrowRight from page 0 or page `max_pages - 1` rebuilds the window of the page it moves to. */
  lemma LemmaRightRebuildsWindow<E>(eng: Engine<E>, im: InputMethod<E>)
    requires PageCountAgrees(eng, im)
    requires im.page == 0 || (im.page == MaxPages - 1 && im.page + 1 < eng.totalPage(im.editor))
    requires eng.totalPage(im.editor) > 1
    ensures var r := PopupRight(eng, im);
      r.Ok? ==> ShowsWindow(r.value.next)
  {
    var r := PopupRight(eng, im);
    var n := eng.totalPage(im.editor);
    if r.Ok? {
      var rebuilt := RebuildRight(im, n);
      assert rebuilt.Ok?;
      assert r.value.next == rebuilt.value.(page := im.page + 1, index := r.value.next.index);
      LemmaRebuiltRows(im, n, rebuilt.value.pages);
    }
  }

  /** ArrowRight from any other page keeps the rows and stays in the same window below page `2 * max_pages - 1`. */
  lemma LemmaRightMovesInWindow<E>(eng: Engine<E>, im: InputMethod<E>)
    requires ShowsWindow(im)
    requires PageCountAgrees(eng, im)
    requires im.page < 2 * MaxPages - 1
    requires !(eng.totalPage(im.editor) > 1 && (im.page == MaxPages - 1 || im.page == 0))
    ensures var r := PopupRight(eng, im);
      r.Ok? ==> r.value.next.pages == im.pages && ShowsWindow(r.value.next)
  {
    var r := PopupRight(eng, im);
    if r.Ok? {
      assert r.value.next.pages == im.pages;
      LemmaWindowMove(im.candidates, im.page, r.value.next.page, im.pages);
    }
  }

  /** ArrowRight keeps the window invariant for the first windows, except when it
      is pressed on page `max_pages - 1` and that page is the last. */
  lemma LemmaRightKeepsWindow<E>(eng: Engine<E>, im: InputMethod<E>)
    requires ShowsWindow(im)
    requires PageCountAgrees(eng, im)
    requires im.page < 2 * MaxPages - 1
    requires !(im.page == MaxPages - 1 && im.page + 1 == eng.totalPage(im.editor))
    ensures var r := PopupRight(eng, im);
      r.Ok? ==> ShowsWindow(r.value.next)
  {
    if eng.totalPage(im.editor) > 1 && (im.page == MaxPages - 1 || im.page == 0) {
      LemmaRightRebuildsWindow(eng, im);
    } else {
      LemmaRightMovesInWindow(eng, im);
    }
  }

  /** A complete window of full pages starting at `page`'s window is a valid window for `page`. */
  lemma LemmaWindowFresh(cands: seq<string>, page: nat, pages: seq<seq<string>>)
    requires page < PageCount(|cands|)
    requires |pages| == Min(PageCount(|cands|) - page / MaxPages * MaxPages, MaxPages)
    requires forall i :: 0 <= i < |pages| ==>
      (page / MaxPages * MaxPages + i) * MaxCandidates <= |cands|
      && pages[i] == PageAt(cands, page / MaxPages * MaxPages + i)
    ensures WindowOf(cands, page, pages)
  {
  }

  /** The full window of `max_pages` pages starting at `first` is a valid window for its last page. */
  lemma LemmaFullWindow(cands: seq<string>, first: nat)
    requires first % MaxPages == 0
    requires first + MaxPages < PageCount(|cands|)
    ensures ExactWindow(cands, first, MaxPages).Ok?
    ensures WindowOf(cands, first + MaxPages - 1, ExactWindow(cands, first, MaxPages).value)
  {
    var w := ExactWindow(cands, first, MaxPages);
    var last := first + MaxPages - 1;
    assert w.Ok? by {
      LemmaPageStartInRange(|cands|, first + MaxPages);
    }
    assert WindowOf(cands, last, w.value) by {
      assert last / MaxPages * MaxPages == first;
      LemmaWindowFresh(cands, last, w.value);
    }
  }

  /** ArrowLeft from the first page of window 1 or 2 rebuilds the previous window from full pages. */
  lemma LemmaLeftRebuildsWindow<E>(im: InputMethod<E>)
    requires ShowsWindow(im)
    requires im.page == MaxPages || im.page == 2 * MaxPages
    ensures PopupLeft(im).Ok?
    ensures ShowsWindow(PopupLeft(im).value.next)
  {
    var first := im.page - MaxPages;
    assert im.page / (MaxPages - 1) - 1 == first / MaxPages;
    LemmaFullWindow(im.candidates, first);
    var w := ExactWindow(im.candidates, first, MaxPages);
    assert PopupLeft(im) == Ok(Update(im.(pages := w.value, page := im.page - 1), []));
  }

  /** ArrowLeft from a page that does not start a window keeps the rows. */
  lemma LemmaLeftMovesInWindow<E>(im: InputMethod<E>)
    requires ShowsWindow(im)
    requires im.page % MaxPages != 0 || im.page == 0
    ensures PopupLeft(im).Ok?
    ensures PopupLeft(im).value.next.pages == im.pages
    ensures ShowsWindow(PopupLeft(im).value.next)
  {
    var q := if im.page == 0 then 0 else im.page - 1;
    assert PopupLeft(im).value.next == im.(page := q);
    LemmaWindowMove(im.candidates, im.page, q, im.pages);
  }

  /** ArrowLeft keeps the window invariant while the window it rebuilds is the
      right one (pages up to `2 * max_pages`), and it never panics there. */
  lemma LemmaLeftKeepsWindow<E>(im: InputMethod<E>)
    requires ShowsWindow(im)
    requires im.page <= 2 * MaxPages
    ensures PopupLeft(im).Ok?
    ensures ShowsWindow(PopupLeft(im).value.next)
  {
    if im.page != 0 && im.page % MaxPages == 0 {
      LemmaLeftRebuildsWindow(im);
    } else {
      LemmaLeftMovesInWindow(im);
    }
  }

  // ---------------------------------------------------------------- slot invariant

  /** The highlighted slot lies on the current page: the invariant the clamps of
      ArrowDown and ArrowRight (src/main.rs:337-338, 385-389) exist to keep. */
  ghost predicate SlotOnPage<E>(im: InputMethod<E>) {
    && im.page < PageCount(|im.candidates|)
    && im.page * MaxCandidates <= |im.candidates|
    && im.index < |PageAt(im.candidates, im.page)|
  }

  /** ArrowUp keeps the slot on its page. */
  lemma LemmaUpKeepsSlot<E>(im: InputMethod<E>)
    requires SlotOnPage(im)
    ensures SlotOnPage(PopupUp(im).next)
  {
  }

  /** ArrowLeft keeps the slot on its page: the page it moves to is full. */
  lemma LemmaLeftKeepsSlot<E>(im: InputMethod<E>)
    requires SlotOnPage(im)
    ensures PopupLeft(im).Ok? ==> SlotOnPage(PopupLeft(im).value.next)
  {
    if im.page > 0 {
      LemmaPageLength(im.candidates, im.page);
      LemmaPageLength(im.candidates, im.page - 1);
    }
  }

  /** ArrowDown keeps the slot on its page, and after fetching a new batch the
      slot is on its first page unless that batch is empty. */
  lemma LemmaDownKeepsSlot<E>(eng: Engine<E>, im: InputMethod<E>)
    requires PageCountAgrees(eng, im)
    requires SlotOnPage(im)
    ensures var r := PopupDown(eng, im);
      r.Ok? && r.value.next.candidates != [] ==> SlotOnPage(r.value.next)
  {
    var r := PopupDown(eng, im);
    LemmaPageLength(im.candidates, im.page);
    LemmaLastSlotAsWritten(|im.candidates|);
    if r.Ok? && r.value.next.candidates != [] && r.value.next != Refetch(eng, im) {
      assert r.value.next.candidates == im.candidates;
    }
  }

  /** ArrowRight keeps the slot on its page: on the last page the slot is clamped
      to `len % max_candidates - 1`, its last entry. */
  lemma LemmaRightKeepsSlot<E>(eng: Engine<E>, im: InputMethod<E>)
    requires PageCountAgrees(eng, im)
    requires SlotOnPage(im)
    ensures var r := PopupRight(eng, im);
      r.Ok? ==> SlotOnPage(r.value.next)
  {
    var r := PopupRight(eng, im);
    if r.Ok? {
      LemmaPageLength(im.candidates, im.page);
      LemmaPageLength(im.candidates, r.value.next.page);
      LemmaLastSlotAsWritten(|im.candidates|);
    }
  }

  /** On a page the editor reports, ArrowRight panics exactly when it lands on the
      last page and that page is full: its rebuild never fails there. */
  lemma LemmaRightPanicsExactly<E>(eng: Engine<E>, im: InputMethod<E>)
    requires PageCountAgrees(eng, im)
    requires im.page < PageCount(|im.candidates|)
    ensures var n := PageCount(|im.candidates|);
      PopupRight(eng, im).Panic? <==>
        Min(im.page + 1, n - 1) == n - 1 && |im.candidates| % MaxCandidates == 0
  {
    var n := PageCount(|im.candidates|);
    if n > 1 && (im.page == MaxPages - 1 || im.page == 0) {
      var first := im.page / (MaxPages - 1) * MaxPages;
      var rows := Min(n - first, MaxPages);
      if rows > 0 {
        LemmaPageStartInRange(|im.candidates|, first + rows - 1);
      }
      assert ClampedWindow(im.candidates, first, rows).Ok?;
    }
  }

  /** The arrow keys in the popup keep the slot on its page (after a fetch, when
      the new batch is not empty). */
  lemma LemmaArrowsKeepSlot<E>(eng: Engine<E>, im: InputMethod<E>, ev: KeyEvent, n: NamedKey, mods: ModifierState)
    requires im.state == Popup
    requires PageCountAgrees(eng, im)
    requires SlotOnPage(im)
    requires n == ArrowUp || n == ArrowDown || n == ArrowLeft || n == ArrowRight
    ensures var r := Step(eng, im, KeyPressed(ev, Named(n), mods));
      r.Ok? && r.value.next.candidates != [] ==> SlotOnPage(r.value.next)
  {
    LemmaPopupKeys(eng, im, ev, mods);
    match n {
      case ArrowUp => LemmaUpKeepsSlot(im);
      case ArrowDown => LemmaDownKeepsSlot(eng, im);
      case ArrowLeft => LemmaLeftKeepsSlot(im);
      case ArrowRight => LemmaRightKeepsSlot(eng, im);
    }
  }

  // ---------------------------------------------------------------- pass-through

  /** A printable key in pass-through goes to the editor; if the pre-edit stays
      empty the key is forwarded raw and the session stays in pass-through,
      otherwise a pre-edit update starts. */
  lemma LemmaPrintableInPassThrough<E>(eng: Engine<E>, im: InputMethod<E>, ev: KeyEvent, key: Key, mods: ModifierState)
    requires im.state == PassThrough && !im.passthroughMode
    requires key != Named(Shift) && key != Named(NamedKey.Space)
    requires LastChar(ev).Some?
    ensures var e1 := eng.processKey(im.editor, AsciiKey(LastChar(ev).value));
      var r := Step(eng, im, KeyPressed(ev, key, mods));
      && (Preedit(eng, e1) == [] ==>
            r == Ok(Update(im.(shiftSet := false, editor := e1), [ForwardKey(ev)])))
      && (Preedit(eng, e1) != [] ==>
            r == PreeditString(eng, im.(shiftSet := false, editor := e1)))
  {
  }

  /** In forced pass-through mode every key but shift is forwarded and the editor is not consulted. */
  lemma LemmaForcedPassThroughForwards<E>(eng: Engine<E>, im: InputMethod<E>, ev: KeyEvent, key: Key, mods: ModifierState)
    requires im.state == PassThrough && im.passthroughMode
    requires key != Named(Shift)
    ensures Step(eng, im, KeyPressed(ev, key, mods)) == Ok(Update(im.(shiftSet := false), [ForwardKey(ev)]))
  {
  }

  /** In pass-through a shift press arms the latch; any other key press disarms it. */
  lemma LemmaShiftPressArms<E>(eng: Engine<E>, im: InputMethod<E>, ev: KeyEvent, key: Key, mods: ModifierState)
    requires im.state == PassThrough
    ensures var r := Step(eng, im, KeyPressed(ev, key, mods));
      && (key == Named(Shift) ==> r == Ok(Update(im.(shiftSet := true), [])))
      && (key != Named(Shift) && r.Ok? ==> !r.value.next.shiftSet)
  {
  }

  /** In pass-through a shift release with the latch armed flips the mode and sends
      nothing; every other release is forwarded. */
  lemma LemmaReleaseInPassThrough<E>(eng: Engine<E>, im: InputMethod<E>, ev: KeyEvent, key: Key, mods: ModifierState)
    requires im.state == PassThrough
    ensures var r := Step(eng, im, KeyReleased(ev, key, mods));
      && (key == Named(Shift) && im.shiftSet ==>
            r == Ok(Update(im.(shiftSet := false, passthroughMode := !im.passthroughMode), [])))
      && (!(key == Named(Shift) && im.shiftSet) ==> r == Ok(Update(im, [ForwardRelease(ev)])))
  {
  }

  /** The mode flips on exactly one event: a shift release in pass-through with the latch armed. */
  lemma LemmaModeFlipsOnlyOnShiftTap<E>(eng: Engine<E>, im: InputMethod<E>, msg: Message)
    ensures var r := Step(eng, im, msg);
      r.Ok? ==>
        (r.value.next.passthroughMode != im.passthroughMode <==>
           msg.KeyReleased? && msg.key == Named(Shift) && im.state == PassThrough && im.shiftSet)
  {
    match msg {
      case KeyPressed(ev, key, mods) => LemmaKeyPressedOutcome(eng, im, ev, key, mods);
      case ClosePopup => LemmaNumSelectOutcome(eng, im, im.index);
      case _ =>
    }
  }

  /** Two shift taps in pass-through restore the mode and send nothing. */
  lemma LemmaDoubleTapRestoresMode<E>(eng: Engine<E>, im: InputMethod<E>, ev: KeyEvent, mods: ModifierState)
    requires im.state == PassThrough
    ensures var press := KeyPressed(ev, Named(Shift), mods);
      var release := KeyReleased(ev, Named(Shift), mods);
      var r1 := Step(eng, im, press);
      var r2 := Step(eng, r1.value.next, release);
      var r3 := Step(eng, r2.value.next, press);
      var r4 := Step(eng, r3.value.next, release);
      && r1.Ok? && r1.value.actions == []
      && r2.Ok? && r2.value.actions == []
      && r3.Ok? && r3.value.actions == []
      && r2.value.next.passthroughMode == !im.passthroughMode
      && r4 == Ok(Update(im.(shiftSet := false), []))
  {
  }

  // ---------------------------------------------------------------- activation

  /** Deactivation from any state escapes the editor, forces pass-through and
      hides the popup, and it leaves the pending-popup flag as it was. */
  lemma LemmaDeactivate<E>(eng: Engine<E>, im: InputMethod<E>)
    ensures Step(eng, im, Deactivate)
         == Ok(Update(im.(editor := eng.processKey(im.editor, Mapped(Esc)), state := PassThrough), [HidePopup]))
    ensures Step(eng, im, Deactivate).value.next.popup == im.popup
  {
  }

  /** Modifier changes are forwarded in every state and change nothing. */
  lemma LemmaModifiersForwarded<E>(eng: Engine<E>, im: InputMethod<E>, mods: ModifierState, raw: RawModifiers)
    ensures Step(eng, im, Modifiers(mods, raw)) == Ok(Update(im, [ForwardModifiers(raw)]))
  {
  }

  // ---------------------------------------------------------------- invariants

  /** The popup state is only ever entered with the popup flag set, and it keeps it. */
  ghost predicate PopupFlagged<E>(im: InputMethod<E>) {
    im.state == Popup ==> im.popup
  }

  lemma LemmaStepKeepsPopupFlagged<E>(eng: Engine<E>, im: InputMethod<E>, msg: Message)
    requires PopupFlagged(im)
    ensures var r := Step(eng, im, msg);
      r.Ok? ==> PopupFlagged(r.value.next)
  {
    match msg {
      case KeyPressed(ev, key, mods) => LemmaKeyPressedOutcome(eng, im, ev, key, mods);
      case ClosePopup => LemmaNumSelectOutcome(eng, im, im.index);
      case _ =>
    }
  }

  /** The candidate list changes only when the popup is opened or ArrowDown fetches the next batch. */
  lemma LemmaCandidatesChangeOnlyOnFetch<E>(eng: Engine<E>, im: InputMethod<E>, msg: Message)
    ensures var r := Step(eng, im, msg);
      r.Ok? && r.value.next.candidates != im.candidates ==>
        && msg.KeyPressed? && msg.key == Named(ArrowDown)
        && (im.state == PreEdit || im.state == Popup)
        && r.value.next.candidates == eng.allCandidates(eng.processKey(im.editor, Mapped(Down)))
  {
    match msg {
      case KeyPressed(ev, key, mods) => LemmaKeyPressedOutcome(eng, im, ev, key, mods);
      case ClosePopup => LemmaNumSelectOutcome(eng, im, im.index);
      case _ =>
    }
  }

  // ---------------------------------------------------------------- hazards

  /** On a full last page (a candidate count that is a multiple of ten), moving onto
      it with ArrowRight panics: `len % max_candidates - 1` goes below zero. */
  lemma LemmaRightOntoFullLastPagePanics<E>(eng: Engine<E>, im: InputMethod<E>, ev: KeyEvent, mods: ModifierState)
    requires im.state == Popup
    requires |im.candidates| % MaxCandidates == 0
    requires eng.totalPage(im.editor) >= 1
    requires im.page + 1 >= eng.totalPage(im.editor) - 1
    requires !(eng.totalPage(im.editor) > 1 && (im.page == MaxPages - 1 || im.page == 0))
    ensures Step(eng, im, KeyPressed(ev, Named(ArrowRight), mods)) == Panic(Underflow)
  {
  }

  /** An empty candidate list is not rejected: the popup opens with one empty page,
      and the first ArrowDown in it panics. */
  lemma LemmaEmptyCandidatesOpenPopup<E>(eng: Engine<E>, im: InputMethod<E>, ev: KeyEvent, mods: ModifierState)
    requires im.state == PreEdit
    requires eng.allCandidates(eng.processKey(im.editor, Mapped(Down))) == []
    requires eng.cursor(eng.processKey(im.editor, Mapped(Down))) <= |im.currentPreedit|
    ensures var r := Step(eng, im, KeyPressed(ev, Named(ArrowDown), mods));
      && r.Ok? && r.value.next.popup && r.value.next.pages == [[]]
      && Step(eng, r.value.next.(state := Popup), KeyPressed(ev, Named(ArrowDown), mods)) == Panic(Underflow)
  {
  }

  /** ArrowLeft's window `page / (max_pages - 1) - 1` is the window of the page it
      moves to only for pages `max_pages` and `2 * max_pages`. */
  lemma LemmaLeftWindowIndex(page: nat)
    requires page != 0 && page % MaxPages == 0
    ensures page / (MaxPages - 1) - 1 == (page - 1) / MaxPages <==> page <= 2 * MaxPages
  {
  }

  /** From page `3 * max_pages`, ArrowLeft rebuilds window 3 instead of window 2:
      it panics when there are fewer than 16 full pages, and otherwise highlights a
      page of the wrong window. */
  lemma LemmaLeftFromTwelfthPage<E>(im: InputMethod<E>)
    requires im.page == 3 * MaxPages
    ensures var r := PopupLeft(im);
      && (|im.candidates| < 16 * MaxCandidates ==> r == Panic(SliceOutOfRange))
      && (r.Ok? ==>
            && r.value.next.page == 3 * MaxPages - 1
            && r.value.next.pages[(3 * MaxPages - 1) % MaxPages] == PageAt(im.candidates, 15))
  {
    var w := ExactWindow(im.candidates, 12, MaxPages);
    assert PopupLeft(im) == (if w.Ok? then Ok(Update(im.(pages := w.value, page := 11), [])) else Panic(w.fault));
    if w.Ok? {
      assert w.value[3] == PageAt(im.candidates, 12 + 3);
    }
  }

  /** ArrowRight rebuilds only at page 0 and page `max_pages - 1`: moving from page
      `2 * max_pages - 1` to `2 * max_pages` keeps window 1, so the highlighted
      column shows page 4 while selection uses page 8. */
  lemma LemmaRightWindowGoesStale<E>(eng: Engine<E>, im: InputMethod<E>, ev: KeyEvent, mods: ModifierState)
    requires im.state == Popup
    requires ShowsWindow(im)
    requires PageCountAgrees(eng, im)
    requires im.page == 2 * MaxPages - 1
    requires eng.totalPage(im.editor) > 2 * MaxPages + 1
    ensures var r := Step(eng, im, KeyPressed(ev, Named(ArrowRight), mods));
      && r.Ok?
      && r.value.next.page == 2 * MaxPages
      && r.value.next.pages == im.pages
      && r.value.next.pages[r.value.next.page % MaxPages] == PageAt(im.candidates, MaxPages)
  {
  }

  /** ArrowRight on page `max_pages - 1` when that is the last page rebuilds an empty window. */
  lemma LemmaRightEmptiesWindow<E>(eng: Engine<E>, im: InputMethod<E>, ev: KeyEvent, mods: ModifierState)
    requires im.state == Popup
    requires im.page == MaxPages - 1
    requires eng.totalPage(im.editor) == MaxPages
    ensures var r := Step(eng, im, KeyPressed(ev, Named(ArrowRight), mods));
      r.Ok? ==> r.value.next.pages == [] && r.value.next.page == im.page
  {
  }
}

=== FILE: outcomes.dfy ===
/** Failure-compatible wrappers shared by the whole model.

Rust code either returns or panics; a panic that the controller's code can
reach (checked `usize` arithmetic going below zero, a slice range outside its
vector) is a `Panic` carrying the reason, so that every operation of the model
is total and the hazards are visible in its results.
 */
module Outcomes {

  datatype Option<+T> = None | Some(value: T)

  /** Why the modelled Rust code would panic. */
  datatype Fault =
    | Underflow        // `usize` subtraction below zero (checked arithmetic)
    | SliceOutOfRange  // `v[a..b]` with `a > b` or `b > v.len()`

  datatype Result<+T> = Ok(value: T) | Panic(fault: Fault) {

    predicate IsFailure() {
      Panic?
    }

    function PropagateFailure<U>(): Result<U>
      requires Panic?
    {
      Panic(fault)
    }

    function Extract(): T
      requires Ok?
    {
      value
    }
  }
}

=== FILE: paging.dfy ===
/** Candidate pagination: a flat candidate list cut into pages of `MaxCandidates` entries,
the windows of consecutive pages the popup displays, the flat index a
(page, slot) pair selects, and the digit shortcuts for the slots of a page.
 */
module Paging {
  import opened Outcomes

  /** `max_candidates`, the page size: set once by `Application::new`
      (src/main.rs:211) and never changed afterwards. */
  const MaxCandidates: nat := 10

  function Min(a: nat, b: nat): nat {
    if a <= b then a else b
  }

  /** Number of pages `len` entries fill: the ceiling of `len / MaxCandidates`. */
  function PageCount(len: nat): (n: nat)
    ensures len <= n * MaxCandidates
    ensures n > 0 ==> (n - 1) * MaxCandidates < len
    ensures n == 0 <==> len == 0
  {
    var n := (len + MaxCandidates - 1) / MaxCandidates;
    assert len + MaxCandidates - 1 == n * MaxCandidates + (len + MaxCandidates - 1) % MaxCandidates;
    LemmaMulSucc(if n > 0 then n - 1 else 0, MaxCandidates);
    n
  }

  /** Page `p`: the entries from `p * MaxCandidates` up to the next page boundary or the end of the list. */
  function PageAt<T>(xs: seq<T>, p: nat): (page: seq<T>)
    requires p * MaxCandidates <= |xs|
    ensures |page| <= MaxCandidates
    ensures forall i :: 0 <= i < |page| ==> p * MaxCandidates + i < |xs| && page[i] == xs[p * MaxCandidates + i]
  {
    xs[p * MaxCandidates .. Min(p * MaxCandidates + MaxCandidates, |xs|)]
  }

  /** Rows `first .. first + rows - 1`, each cut short at the end of the list,
      as the ArrowRight arm of the popup builds them (src/main.rs:373-382).
      A row that would start past the end makes the slice panic. */
  function ClampedWindow<T>(xs: seq<T>, first: nat, rows: nat): (r: Result<seq<seq<T>>>)
    ensures r.Ok? <==> rows == 0 || (first + rows - 1) * MaxCandidates <= |xs|
    ensures r.Ok? ==> |r.value| == rows
    ensures r.Ok? ==> forall i :: 0 <= i < rows ==>
      (first + i) * MaxCandidates <= |xs| && r.value[i] == PageAt(xs, first + i)
    decreases rows
  {
    if rows == 0 then Ok([])
    else if first * MaxCandidates > |xs| then
      LemmaMulMonotone(first, first + rows - 1, MaxCandidates);
      Panic(SliceOutOfRange)
    else
      var rest :- ClampedWindow(xs, first + 1, rows - 1);
      Ok([PageAt(xs, first)] + rest)
  }

  /** Rows `first .. first + rows - 1`, each exactly `MaxCandidates` entries long, as the
      ArrowLeft arm builds them (src/main.rs:353-359). A row that would end past
      the end of the list makes the slice panic. */
  function ExactWindow<T>(xs: seq<T>, first: nat, rows: nat): (r: Result<seq<seq<T>>>)
    ensures r.Ok? <==> rows == 0 || (first + rows) * MaxCandidates <= |xs|
    ensures r.Ok? ==> |r.value| == rows
    ensures r.Ok? ==> forall i :: 0 <= i < rows ==>
      (first + i) * MaxCandidates <= |xs| && |r.value[i]| == MaxCandidates && r.value[i] == PageAt(xs, first + i)
    decreases rows
  {
    if rows == 0 then Ok([])
    else if first * MaxCandidates + MaxCandidates > |xs| then
      LemmaMulMonotone(first + 1, first + rows, MaxCandidates);
      LemmaMulSucc(first, MaxCandidates);
      Panic(SliceOutOfRange)
    else
      LemmaMulSucc(first, MaxCandidates);
      var rest :- ExactWindow(xs, first + 1, rows - 1);
      Ok([xs[first * MaxCandidates .. first * MaxCandidates + MaxCandidates]] + rest)
  }

  /** The reference pagination: every page of the list, in order. */
  function AllPages<T>(xs: seq<T>): (pages: seq<seq<T>>)
  {
    var n := PageCount(|xs|);
    seq(n, p requires 0 <= p < n => LemmaPageStartInRange(|xs|, p); PageAt(xs, p))
  }

  lemma LemmaPageStartInRange(len: nat, p: nat)
    requires p < PageCount(len)
    ensures p * MaxCandidates < len
  {
    var n := PageCount(len);
    LemmaMulMonotone(p, n - 1, MaxCandidates);
  }

  function Flatten<T>(rows: seq<seq<T>>): seq<T> {
    if |rows| == 0 then [] else rows[0] + Flatten(rows[1..])
  }

  /** The pagination has ceil(L/K) pages; every page is non-empty and at most
      `MaxCandidates` long; the last one holds `L - (n - 1) * MaxCandidates` entries. */
  lemma LemmaPageShape<T>(xs: seq<T>)
    ensures |AllPages(xs)| == PageCount(|xs|)
    ensures forall p :: 0 <= p < |AllPages(xs)| ==>
      0 < |AllPages(xs)[p]| <= MaxCandidates
    ensures |xs| > 0 ==>
      var n := PageCount(|xs|);
      |AllPages(xs)[n - 1]| == |xs| - (n - 1) * MaxCandidates
  {
    var pages := AllPages(xs);
    forall p | 0 <= p < |pages|
      ensures 0 < |pages[p]| <= MaxCandidates
    {
      LemmaPageStartInRange(|xs|, p);
    }
    if |xs| > 0 {
      var n := PageCount(|xs|);
      LemmaMulSucc(n - 1, MaxCandidates);
      LemmaPageStartInRange(|xs|, n - 1);
      assert pages[n - 1] == PageAt(xs, n - 1);
    }
  }

  /** Consecutive pages tile the list: the window starting at page `first`
      spells out exactly the entries it covers. */
  lemma {:induction false} LemmaWindowFlattens<T>(xs: seq<T>, first: nat, rows: nat)
    requires ClampedWindow(xs, first, rows).Ok?
    requires rows > 0
    ensures Flatten(ClampedWindow(xs, first, rows).value)
         == xs[first * MaxCandidates .. Min(first * MaxCandidates + rows * MaxCandidates, |xs|)]
    decreases rows
  {
    var w := ClampedWindow(xs, first, rows).value;
    var s := first * MaxCandidates;
    if rows == 1 {
      assert w == [PageAt(xs, first)];
      assert w[1..] == [];
    } else {
      var rest := ClampedWindow(xs, first + 1, rows - 1);
      var m := Min(s + rows * MaxCandidates, |xs|);
      assert rest.Ok? && s + MaxCandidates <= m
          && Flatten(w) == xs[s .. s + MaxCandidates] + Flatten(rest.value) by {
        LemmaWindowStep(xs, first, rows);
      }
      assert Flatten(rest.value) == xs[s + MaxCandidates .. m] by {
        LemmaWindowFlattens(xs, first + 1, rows - 1);
        LemmaMulSucc(rows - 1, MaxCandidates);
        LemmaMulSucc(first, MaxCandidates);
        assert Min((first + 1) * MaxCandidates + (rows - 1) * MaxCandidates, |xs|) == m;
      }
      assert xs[s .. s + MaxCandidates] + xs[s + MaxCandidates .. m] == xs[s .. m];
    }
  }

  /** A window of two or more rows is its first page, of full length, followed by the window one page on. */
  lemma LemmaWindowStep<T>(xs: seq<T>, first: nat, rows: nat)
    requires ClampedWindow(xs, first, rows).Ok?
    requires rows > 1
    ensures first * MaxCandidates + MaxCandidates <= |xs|
    ensures ClampedWindow(xs, first + 1, rows - 1).Ok?
    ensures Flatten(ClampedWindow(xs, first, rows).value)
         == xs[first * MaxCandidates .. first * MaxCandidates + MaxCandidates] + Flatten(ClampedWindow(xs, first + 1, rows - 1).value)
  {
    var w := ClampedWindow(xs, first, rows).value;
    var rest := ClampedWindow(xs, first + 1, rows - 1);
    LemmaMulSucc(first, MaxCandidates);
    LemmaMulMonotone(first + 1, first + rows - 1, MaxCandidates);
    assert rest.Ok?;
    assert w[1..] == rest.value;
    assert w[0] == PageAt(xs, first) == xs[first * MaxCandidates .. first * MaxCandidates + MaxCandidates];
  }

  /** Concatenating every page gives back the candidate list. */
  lemma LemmaPagesPartition<T>(xs: seq<T>)
    ensures Flatten(AllPages(xs)) == xs
  {
    var n := PageCount(|xs|);
    if n == 0 {
      assert AllPages(xs) == [];
    } else {
      var w := ClampedWindow(xs, 0, n);
      assert w.Ok? by { assert (n - 1) * MaxCandidates < |xs|; }
      assert w.value == AllPages(xs);
      LemmaWindowFlattens(xs, 0, n);
      assert Min(n * MaxCandidates, |xs|) == |xs|;
    }
  }

  /** A window the source builds from page `first` is a run of consecutive pages of the reference pagination. */
  lemma LemmaWindowIsPageRun<T>(xs: seq<T>, first: nat, rows: nat)
    requires first + rows <= PageCount(|xs|)
    ensures ClampedWindow(xs, first, rows).Ok?
    ensures ClampedWindow(xs, first, rows).value == AllPages(xs)[first .. first + rows]
  {
    if rows > 0 {
      LemmaPageStartInRange(|xs|, first + rows - 1);
    }
  }

  /** The flat index of a (page, slot) pair: `page * max_candidates + index`. */
  function FlatIndex(page: nat, slot: nat): nat {
    page * MaxCandidates + slot
  }

  /** Selecting slot `slot` of page `p` addresses exactly that candidate, and the
      flat index decomposes back into the same page and slot. */
  lemma LemmaFlatIndexSelects<T>(xs: seq<T>, p: nat, slot: nat)
    requires p * MaxCandidates <= |xs|
    requires slot < |PageAt(xs, p)|
    ensures FlatIndex(p, slot) < |xs|
    ensures xs[FlatIndex(p, slot)] == PageAt(xs, p)[slot]
    ensures FlatIndex(p, slot) / MaxCandidates == p
    ensures FlatIndex(p, slot) % MaxCandidates == slot
  {
    LemmaDivModUnique(p * MaxCandidates + slot, p, slot);
  }

  /** Every candidate is reachable: index `f` is slot `f % MaxCandidates` of page `f / MaxCandidates`. */
  lemma LemmaFlatIndexCovers<T>(xs: seq<T>, f: nat)
    requires f < |xs|
    ensures f / MaxCandidates < PageCount(|xs|)
    ensures (f / MaxCandidates) * MaxCandidates <= |xs|
    ensures f % MaxCandidates < |PageAt(xs, f / MaxCandidates)|
    ensures FlatIndex(f / MaxCandidates, f % MaxCandidates) == f
  {
    var n := PageCount(|xs|);
    var q := f / MaxCandidates;
    assert f == q * MaxCandidates + f % MaxCandidates;
    LemmaMulCancelLt(q, n, MaxCandidates);
  }

  lemma LemmaDivModUnique(f: nat, p: nat, slot: nat)
    requires slot < MaxCandidates
    requires f == p * MaxCandidates + slot
    ensures f / MaxCandidates == p
    ensures f % MaxCandidates == slot
  {
    var q := f / MaxCandidates;
    assert f == q * MaxCandidates + f % MaxCandidates;
    LemmaMulSucc(p, MaxCandidates);
    LemmaMulCancelLt(q, p + 1, MaxCandidates);
    LemmaMulSucc(q, MaxCandidates);
    LemmaMulCancelLt(p, q + 1, MaxCandidates);
  }

  lemma LemmaMulSucc(a: nat, c: nat)
    ensures (a + 1) * c == a * c + c
  {
  }

  lemma {:induction false} LemmaMulMonotone(a: nat, b: nat, c: nat)
    requires a <= b
    ensures a * c <= b * c
    decreases b - a
  {
    if a < b {
      LemmaMulMonotone(a + 1, b, c);
      LemmaMulSucc(a, c);
    }
  }

  lemma LemmaMulCancelLt(a: nat, b: nat, c: nat)
    ensures a * c < b * c ==> a < b
  {
    if b <= a {
      LemmaMulMonotone(b, a, c);
    }
  }

  /** Last valid slot of the last page of `len` entries. */
  function LastSlot(len: nat): nat
    requires len > 0
  {
    (len - 1) % MaxCandidates
  }

  /** The last page ends at `LastSlot`: its length is `LastSlot + 1`. */
  lemma LemmaLastSlotEndsLastPage<T>(xs: seq<T>)
    requires |xs| > 0
    ensures var n := PageCount(|xs|);
      (n - 1) * MaxCandidates <= |xs| && |PageAt(xs, n - 1)| == LastSlot(|xs|) + 1
  {
    var n := PageCount(|xs|);
    LemmaPageShape(xs);
    LemmaDivModUnique(|xs| - 1, n - 1, |xs| - 1 - (n - 1) * MaxCandidates);
  }

  /** Every page but the last is full; the last one ends at `LastSlot`. */
  lemma LemmaPageLength<T>(xs: seq<T>, p: nat)
    requires p < PageCount(|xs|)
    ensures p * MaxCandidates <= |xs|
    ensures p + 1 < PageCount(|xs|) ==> |PageAt(xs, p)| == MaxCandidates
    ensures p + 1 == PageCount(|xs|) ==> |PageAt(xs, p)| == LastSlot(|xs|) + 1
  {
    var n := PageCount(|xs|);
    LemmaPageStartInRange(|xs|, p);
    if p + 1 < n {
      LemmaMulSucc(p, MaxCandidates);
      LemmaPageStartInRange(|xs|, p + 1);
    } else {
      LemmaLastSlotEndsLastPage(xs);
    }
  }

  /** The source computes the last slot as `len % MaxCandidates - 1` (src/main.rs:324, 338, 388):
      it agrees with `LastSlot` except when the last page is full, where the
      `usize` subtraction goes below zero. */
  lemma LemmaLastSlotAsWritten(len: nat)
    requires len > 0
    ensures len % MaxCandidates != 0 ==> len % MaxCandidates - 1 == LastSlot(len)
    ensures len % MaxCandidates == 0 <==> LastSlot(len) == MaxCandidates - 1
  {
    LemmaDivModUnique(len, len / MaxCandidates, len % MaxCandidates);
    if len % MaxCandidates != 0 {
      LemmaDivModUnique(len - 1, len / MaxCandidates, len % MaxCandidates - 1);
    } else {
      LemmaDivModUnique(len - 1, len / MaxCandidates - 1, MaxCandidates - 1);
    }
    if LastSlot(len) == MaxCandidates - 1 {
      LemmaDivModUnique(len, (len - 1) / MaxCandidates + 1, 0);
    }
  }

  /** Digit shortcut keys '1'..'9' pick slots 0..8 and '0' picks slot 9 (src/main.rs:310-319). */
  function ShortcutSlot(key: string): (r: Option<nat>)
    ensures r.Some? ==> r.value < 10
  {
    if key == "1" then Some(0)
    else if key == "2" then Some(1)
    else if key == "3" then Some(2)
    else if key == "4" then Some(3)
    else if key == "5" then Some(4)
    else if key == "6" then Some(5)
    else if key == "7" then Some(6)
    else if key == "8" then Some(7)
    else if key == "9" then Some(8)
    else if key == "0" then Some(9)
    else None
  }

  /** The label the popup prints beside slot `slot`: the digit of `(slot + 1) % 10` (src/main.rs:547). */
  function SlotLabel(slot: nat): (shown: string)
    requires slot < 10
    ensures |shown| == 1 && '0' <= shown[0] <= '9'
  {
    [(((slot + 1) % 10) + '0' as int) as char]
  }

  /** The shortcut keys and the printed labels are inverse: pressing the digit
      shown beside a slot selects that slot, and every shortcut digit is the
      label of the slot it selects. */
  lemma LemmaShortcutMatchesLabel(slot: nat, key: string)
    requires slot < 10
    ensures ShortcutSlot(SlotLabel(slot)) == Some(slot)
    ensures ShortcutSlot(key) == Some(slot) ==> key == SlotLabel(slot)
  {
  }
}

=== FILE: scenarios.dfy ===
/** Concrete sessions against a small stand-in editor: the walks a user of the
input method goes through, each stated as the exact requests the controller
sends. The stand-in editor types lower-case ASCII letters into its buffer,
clears the buffer on Escape and on Enter, and serves a fixed candidate list.
 */
module Scenarios {
  import opened Outcomes
  import opened Utf8
  import opened Paging
  import opened Events
  import opened Chewing
  import opened Ime
  import opened ImeProperties

  /** The stand-in editor's state. */
  datatype Toy = Toy(text: string, cursor: nat, cands: seq<string>)

  function ToyKey(e: Toy, k: EditorKey): Toy {
    match k
    case MappedAscii(b) =>
      if 'a' as int <= b as int <= 'z' as int then Toy(e.text + [b as int as char], e.cursor + 1, e.cands) else e
    case Mapped(code) =>
      if code == Esc || code == KeyCode.Enter then e.(text := [], cursor := 0) else e
    case MappedShift(_) => e
  }

  const ToyEngine: Engine<Toy> := Engine(
    (e: Toy) => e.text,
    (e: Toy) => [],
    (e: Toy) => e.cursor,
    (e: Toy) => e.cands,
    (e: Toy) => PageCount(|e.cands|),
    (e: Toy, i: nat) => e,
    ToyKey)

  /** The controller over a fixed editor interface, as a step function. */
  function StepOf<E>(eng: Engine<E>): (InputMethod<E>, Message) -> Result<Update<E>> {
    (im: InputMethod<E>, m: Message) => Step(eng, im, m)
  }

  /** Feed a message sequence through a step function, collecting every request in order. */
  function RunWith<E>(step: (InputMethod<E>, Message) -> Result<Update<E>>, im: InputMethod<E>,
                      msgs: seq<Message>): Result<Update<E>>
    decreases |msgs|
  {
    if msgs == [] then Ok(Update(im, []))
    else
      var u :- step(im, msgs[0]);
      var rest :- RunWith(step, u.next, msgs[1..]);
      Ok(Update(rest.next, u.actions + rest.actions))
  }

  /** Feed a message sequence through the controller. */
  function Run<E>(eng: Engine<E>, im: InputMethod<E>, msgs: seq<Message>): Result<Update<E>> {
    RunWith(StepOf(eng), im, msgs)
  }

  /** Running two message sequences one after the other is running their concatenation. */
  lemma {:induction false} LemmaRunAppend<E>(step: (InputMethod<E>, Message) -> Result<Update<E>>,
                                             im: InputMethod<E>, a: seq<Message>, b: seq<Message>)
    ensures RunWith(step, im, a + b) ==
      match RunWith(step, im, a)
      case Panic(f) => Panic(f)
      case Ok(u) =>
        match RunWith(step, u.next, b)
        case Panic(f) => Panic(f)
        case Ok(v) => Ok(Update(v.next, u.actions + v.actions))
    decreases |a|
  {
    if a == [] {
      assert a + b == b;
      match RunWith(step, im, b) {
        case Panic(_) =>
        case Ok(v) => assert [] + v.actions == v.actions;
      }
    } else {
      assert (a + b)[0] == a[0];
      assert (a + b)[1..] == a[1..] + b;
      var r := step(im, a[0]);
      if r.Ok? {
        var u := r.value;
        LemmaRunAppend(step, u.next, a[1..], b);
        var ra := RunWith(step, u.next, a[1..]);
        if ra.Ok? {
          var rb := RunWith(step, ra.value.next, b);
          if rb.Ok? {
            assert u.actions + (ra.value.actions + rb.value.actions)
                == (u.actions + ra.value.actions) + rb.value.actions;
          }
        }
      }
    }
  }

  /** Two runs that both succeed compose into one run of the concatenation. */
  lemma LemmaRunAppendOk<E>(eng: Engine<E>, im: InputMethod<E>, a: seq<Message>, b: seq<Message>,
                            u: Update<E>, v: Update<E>)
    requires Run(eng, im, a) == Ok(u) && Run(eng, u.next, b) == Ok(v)
    ensures Run(eng, im, a + b) == Ok(Update(v.next, u.actions + v.actions))
  {
    LemmaRunAppend(StepOf(eng), im, a, b);
  }

  function Press(k: Key): Message {
    KeyPressed(KeyEvent(0, None), k, ModifierState(false))
  }

  function Type(c: char): Message {
    KeyPressed(KeyEvent(0, Some([c])), Character([c]), ModifierState(false))
  }

  /** The first `n` lower-case letters, as one-char candidates. */
  function Letters(n: nat): seq<string>
    requires n <= 26
  {
    seq(n, i requires 0 <= i < n => [('a' as int + i) as char])
  }

  /** Twenty-three distinct candidates make two full pages and a page of three. */
  lemma LemmaTwentyThreeCandidatesPaginate()
    ensures var pages := AllPages(Letters(23));
      && |pages| == 3
      && |pages[0]| == 10 && |pages[1]| == 10 && |pages[2]| == 3
      && pages[2] == ["u", "v", "w"]
  {
    var xs := Letters(23);
    LemmaPageShape(xs);
    assert PageCount(23) == 3;
    assert AllPages(xs)[2] == xs[20 .. 23];
  }

  /** A popup over twenty-three candidates at the given page and slot. Page 0
      shows the single row `open_popup` builds; later pages show the three rows
      ArrowRight rebuilds when it leaves page 0. */
  function PopupAt(page: nat, index: nat): InputMethod<Toy> {
    var cands := Letters(23);
    var rows := if page == 0 then [PageAt(cands, 0)]
                else [PageAt(cands, 0), PageAt(cands, 1), PageAt(cands, 2)];
    InputMethod(page, index, Toy("ni", 2, cands), Popup, cands, "ni", 2, 2, rows, true, false, false)
  }

  /** The sessions `PopupAt` builds on pages 0 to 2 show their page's window. */
  lemma LemmaPopupAtShowsWindow(page: nat, index: nat)
    requires page < 3
    ensures ShowsWindow(PopupAt(page, index))
    ensures ShowsCurrentPage(PopupAt(page, index))
  {
    assert PageCount(23) == 3;
    LemmaShowsWindowShowsPage(PopupAt(page, index));
  }

  /** ArrowRight twice reaches the last page, where the slot is clamped to its last entry. */
  lemma LemmaRightTwiceClampsSlot()
    ensures var r1 := Step(ToyEngine, PopupAt(0, 5), Press(Named(ArrowRight)));
      && r1.Ok? && r1.value.next.page == 1 && r1.value.next.index == 5 && |r1.value.next.pages| == 3
      && var r2 := Step(ToyEngine, r1.value.next, Press(Named(ArrowRight)));
         r2.Ok? && r2.value.next.page == 2 && r2.value.next.index == 2 && r2.value.actions == []
  {
    var cands := Letters(23);
    assert PageCount(23) == 3;
    var w := ClampedWindow(cands, 0, 3);
    assert w.Ok?;
  }

  /** ArrowDown on the last page moves to the next slot and, from the last entry, fetches anew. */
  lemma LemmaDownOnLastPage()
    ensures var r := Step(ToyEngine, PopupAt(2, 1), Press(Named(ArrowDown)));
      r.Ok? && r.value.next.index == 2 && r.value.next.page == 2
    ensures var r := Step(ToyEngine, PopupAt(2, 2), Press(Named(ArrowDown)));
      r.Ok? && r.value.next.index == 0 && r.value.next.page == 0
  {
    assert PageCount(23) == 3;
  }

  /** Digit 3 on page 1 selects flat candidate 12, the letter shown third on that page. */
  lemma LemmaDigitSelectsOnPage()
    ensures var im := PopupAt(1, 0);
      && FlatIndex(im.page, 2) == 12
      && im.candidates[12] == "m"
      && im.pages[im.page % MaxPages][2] == "m"
      && Step(ToyEngine, im, Type('3')) == NumSelect(ToyEngine, im, 2)
  {
  }

  /** The cursor after two bopomofo-length characters of three is at byte 6. */
  lemma LemmaBopomofoCursor()
    ensures ByteOffset("\U{3105}\U{3127}\U{3122}", 2) == 6
    ensures |Encode("\U{3105}\U{3127}\U{3122}")| == 9
    ensures CharIndex("\U{3105}\U{3127}\U{3122}", 6) == 2
  {
    var s := "\U{3105}\U{3127}\U{3122}";
    LemmaCharIndexOfOffset(s, 2);
    LemmaOffsetEnds(s);
    assert Encode(s) == EncodeChar(s[0]) + EncodeChar(s[1]) + EncodeChar(s[2]) by {
      LemmaEncodeAppend(s[..2], [s[2]]);
      LemmaEncodeAppend([s[0]], [s[1]]);
      assert s[..2] == [s[0]] + [s[1]];
      assert s == s[..2] + [s[2]];
    }
    assert s[..2] == [s[0]] + [s[1]];
    LemmaEncodeAppend([s[0]], [s[1]]);
  }

  /** An idle session in pass-through. */
  const Idle: InputMethod<Toy> := Initial(Toy([], 0, []))

  /** A digit the editor does not take is forwarded and the session stays in pass-through. */
  lemma LemmaDigitPassesThrough()
    ensures Step(ToyEngine, Idle, Type('7'))
         == Ok(Update(Idle, [ForwardKey(KeyEvent(0, Some("7")))]))
  {
  }

  /** A letter starts a composition: the pre-edit is sent with the cursor after it. */
  lemma LemmaLetterStartsComposition()
    ensures var r := Step(ToyEngine, Idle, Type('n'));
      && r.Ok?
      && r.value.next.state == WaitingForDone
      && r.value.actions == [SetPreedit("n", 1, 1), Commit]
  {
    LemmaTypeLetter(Idle, 'n');
  }

  /** A one-letter ASCII text is one byte long. */
  lemma LemmaOneLetter(c: char)
    requires c as int < 0x80
    ensures |Encode([c])| == 1
    ensures ByteOffset([c], 1) == 1
  {
    assert [c][..1] == [c];
    assert Encode([c]) == EncodeChar(c) by {
      assert [c] == [] + [c];
      LemmaEncodeAppend([], [c]);
    }
  }

  /** In pass-through, typing a letter into an empty stand-in buffer starts a one-letter composition. */
  lemma LemmaTypeLetter(im: InputMethod<Toy>, c: char)
    requires im.state == PassThrough && !im.passthroughMode
    requires im.editor.text == [] && im.editor.cursor == 0
    requires 'a' <= c <= 'z'
    ensures Step(ToyEngine, im, Type(c))
         == Ok(Update(im.(shiftSet := false, editor := Toy([c], 1, im.editor.cands), state := WaitingForDone,
                          currentPreedit := [c], preeditLen := 1, cursorPosition := 1),
                      [SetPreedit([c], 1, 1), Commit]))
  {
    assert AsciiKey(c) == MappedAscii(c as int as byte);
    assert ToyKey(im.editor, AsciiKey(c)) == Toy([c], 1, im.editor.cands);
    var e1 := Toy([c], 1, im.editor.cands);
    assert ToyEngine.processKey(im.editor, AsciiKey(c)) == e1;
    assert Preedit(ToyEngine, e1) == [c];
    assert ToyEngine.cursor(e1) == 1;
    LemmaOneLetter(c);
    var im1 := Feed(ToyEngine, im.(shiftSet := false), AsciiKey(c));
    assert im1.editor == e1;
    assert PassThroughKey(ToyEngine, im, KeyEvent(0, Some([c])), Character([c]), ModifierState(false))
        == PreeditString(ToyEngine, im1);
  }

  /** ArrowDown while composing one letter opens the popup on the stand-in's candidates. */
  lemma LemmaOpenOnLetter(im: InputMethod<Toy>, c: char)
    requires im.state == PreEdit
    requires im.editor.text == [c] && im.editor.cursor == 1 && im.currentPreedit == [c]
    requires 'a' <= c <= 'z'
    ensures Step(ToyEngine, im, Press(Named(ArrowDown)))
         == Ok(Update(im.(state := WaitingForDone, popup := true, candidates := im.editor.cands,
                          index := 0, page := 0, pages := [PageAt(im.editor.cands, 0)],
                          cursorPosition := 1),
                      PreeditRequest([c], 1)))
  {
    LemmaOneLetter(c);
    assert ToyEngine.processKey(im.editor, Mapped(Down)) == im.editor;
    assert Preedit(ToyEngine, im.editor) == [c];
    assert ToyEngine.cursor(im.editor) == 1;
    assert Step(ToyEngine, im, Press(Named(ArrowDown))) == OpenPopup(ToyEngine, im);
  }

  /** A trace whose single steps are known runs to its last session, sending
      the concatenation of every step's requests. */
  lemma {:induction false} LemmaRunTrace<E>(eng: Engine<E>, ms: seq<Message>, s: seq<InputMethod<E>>,
                                            acts: seq<seq<Action>>)
    requires |s| == |ms| + 1 && |acts| == |ms|
    requires forall i :: 0 <= i < |ms| ==> Step(eng, s[i], ms[i]) == Ok(Update(s[i + 1], acts[i]))
    ensures Run(eng, s[0], ms) == Ok(Update(s[|ms|], Flatten(acts)))
    decreases |ms|
  {
    if ms == [] {
    } else {
      forall i | 0 <= i < |ms| - 1
        ensures Step(eng, s[1..][i], ms[1..][i]) == Ok(Update(s[1..][i + 1], acts[1..][i]))
      {
        assert Step(eng, s[i + 1], ms[i + 1]) == Ok(Update(s[i + 2], acts[i + 1]));
      }
      LemmaRunTrace(eng, ms[1..], s[1..], acts[1..]);
      assert Step(eng, s[0], ms[0]) == Ok(Update(s[1], acts[0]));
    }
  }

  /** The session composing `n` after the compositor's first `done`. */
  function ComposingN(cands: seq<string>): InputMethod<Toy> {
    Idle.(editor := Toy("n", 1, cands), state := PreEdit, currentPreedit := "n", preeditLen := 1, cursorPosition := 1)
  }

  /** Typing `n` from idle sends the pre-edit and, after `done`, composes. */
  lemma LemmaComposeN(cands: seq<string>)
    ensures Run(ToyEngine, Idle.(editor := Toy([], 0, cands)), [Type('n'), Done])
         == Ok(Update(ComposingN(cands), [SetPreedit("n", 1, 1), Commit]))
  {
    var im := Idle.(editor := Toy([], 0, cands));
    LemmaTypeLetter(im, 'n');
    var s1 := ComposingN(cands).(state := WaitingForDone);
    LemmaDoneStep(s1);
    assert OnDone(s1) == Update(ComposingN(cands), []);
    var ss := [im, s1, ComposingN(cands)];
    var ms := [Type('n'), Done];
    var acts := [[SetPreedit("n", 1, 1), Commit], []];
    forall i | 0 <= i < 2
      ensures Step(ToyEngine, ss[i], ms[i]) == Ok(Update(ss[i + 1], acts[i]))
    {
    }
    LemmaRunTrace(ToyEngine, ms, ss, acts);
    assert Flatten(acts) == [SetPreedit("n", 1, 1), Commit];
  }

  /** ArrowDown while composing `n`, then two `done`s, shows the popup once. */
  lemma LemmaOpenAndShow(cands: seq<string>)
    ensures var r := Run(ToyEngine, ComposingN(cands), [Press(Named(ArrowDown)), Done, Done]);
      && r.Ok?
      && r.value.next.state == Popup
      && r.value.actions == [SetPreedit("n", 1, 1), Commit, ShowPopup]
  {
    var s2 := ComposingN(cands);
    var s3 := s2.(state := WaitingForDone, popup := true, candidates := cands,
                  pages := [PageAt(cands, 0)]);
    LemmaOpenOnLetter(s2, 'n');
    var s4 := s3.(state := Popup);
    LemmaDoneStep(s3);
    LemmaDoneStep(s4);
    assert OnDone(s3) == Update(s4, [ShowPopup]);
    assert OnDone(s4) == Update(s4, []);
    var ss := [s2, s3, s4, s4];
    var ms := [Press(Named(ArrowDown)), Done, Done];
    var acts := [PreeditRequest("n", 1), [ShowPopup], []];
    forall i | 0 <= i < 3
      ensures Step(ToyEngine, ss[i], ms[i]) == Ok(Update(ss[i + 1], acts[i]))
    {
    }
    LemmaRunTrace(ToyEngine, ms, ss, acts);
    assert Flatten(acts) == [SetPreedit("n", 1, 1), Commit, ShowPopup];
  }

  /** Composing `n`, opening the popup and the compositor's `done` show the popup exactly once. */
  lemma LemmaPopupShownOnce(cands: seq<string>)
    ensures var im := Idle.(editor := Toy([], 0, cands));
      var r := Run(ToyEngine, im, [Type('n'), Done, Press(Named(ArrowDown)), Done, Done]);
      && r.Ok?
      && r.value.next.state == Popup
      && r.value.actions
         == [SetPreedit("n", 1, 1), Commit, SetPreedit("n", 1, 1), Commit, ShowPopup]
  {
    var im := Idle.(editor := Toy([], 0, cands));
    var compose := [Type('n'), Done];
    var open := [Press(Named(ArrowDown)), Done, Done];
    assert compose + open == [Type('n'), Done, Press(Named(ArrowDown)), Done, Done];
    assert [SetPreedit("n", 1, 1), Commit] + [SetPreedit("n", 1, 1), Commit, ShowPopup]
        == [SetPreedit("n", 1, 1), Commit, SetPreedit("n", 1, 1), Commit, ShowPopup];
    var u := Update(ComposingN(cands), [SetPreedit("n", 1, 1), Commit]);
    assert Run(ToyEngine, im, compose) == Ok(u) by {
      LemmaComposeN(cands);
    }
    var r := Run(ToyEngine, u.next, open);
    assert r.Ok? && r.value.next.state == Popup && r.value.actions == [SetPreedit("n", 1, 1), Commit, ShowPopup] by {
      LemmaOpenAndShow(cands);
    }
    LemmaRunAppendOk(ToyEngine, im, compose, open, u, r.value);
  }

  /** The compositor's `done` on a stand-in session. */
  lemma LemmaDoneStep(im: InputMethod<Toy>)
    ensures Step(ToyEngine, im, Done) == Ok(OnDone(im))
  {
  }

  /** An empty candidate list still opens the popup, and ArrowDown in it panics. */
  lemma LemmaEmptyListPanics()
    ensures var im := Idle.(editor := Toy("n", 1, []), state := PreEdit, currentPreedit := "n");
      var r := Run(ToyEngine, im, [Press(Named(ArrowDown)), Done]);
      && r.Ok? && r.value.next.state == Popup && r.value.next.pages == [[]]
      && Step(ToyEngine, r.value.next, Press(Named(ArrowDown))) == Panic(Underflow)
  {
  }

  /** The session with a popup pending after ArrowDown on `n`, deactivated. */
  function DeactivatedWithPopup(cands: seq<string>): InputMethod<Toy> {
    Idle.(editor := Toy([], 0, cands), state := PassThrough, currentPreedit := "n", popup := true,
          candidates := cands, pages := [PageAt(cands, 0)], cursorPosition := 1)
  }

  lemma LemmaOpenThenDeactivate(cands: seq<string>)
    ensures var im := Idle.(editor := Toy("n", 1, cands), state := PreEdit, currentPreedit := "n");
      Run(ToyEngine, im, [Press(Named(ArrowDown)), Deactivate])
        == Ok(Update(DeactivatedWithPopup(cands), PreeditRequest("n", 1) + [HidePopup]))
  {
    var im := Idle.(editor := Toy("n", 1, cands), state := PreEdit, currentPreedit := "n");
    var s1 := im.(state := WaitingForDone, popup := true, candidates := cands,
                  pages := [PageAt(cands, 0)], cursorPosition := 1);
    LemmaOpenOnLetter(im, 'n');
    LemmaDeactivate(ToyEngine, s1);
    assert ToyEngine.processKey(s1.editor, Mapped(Esc)) == Toy([], 0, cands);
    var ss := [im, s1, DeactivatedWithPopup(cands)];
    var ms := [Press(Named(ArrowDown)), Deactivate];
    var acts := [PreeditRequest("n", 1), [HidePopup]];
    forall i | 0 <= i < 2
      ensures Step(ToyEngine, ss[i], ms[i]) == Ok(Update(ss[i + 1], acts[i]))
    {
    }
    LemmaRunTrace(ToyEngine, ms, ss, acts);
    assert Flatten(acts) == PreeditRequest("n", 1) + [HidePopup];
  }

  lemma LemmaTypeAfterDeactivate(cands: seq<string>)
    ensures var r := Run(ToyEngine, DeactivatedWithPopup(cands), [Activate, Type('a'), Done]);
      && r.Ok?
      && r.value.next.state == Popup
      && r.value.actions == [SetPreedit("a", 1, 1), Commit, ShowPopup]
  {
    var s2 := DeactivatedWithPopup(cands);
    LemmaTypeLetter(s2, 'a');
    var s3 := s2.(shiftSet := false, editor := Toy("a", 1, cands), state := WaitingForDone,
                  currentPreedit := "a", preeditLen := 1, cursorPosition := 1);
    LemmaDoneStep(s3);
    var ss := [s2, s2, s3, s3.(state := Popup)];
    var ms := [Activate, Type('a'), Done];
    var acts := [[], [SetPreedit("a", 1, 1), Commit], [ShowPopup]];
    forall i | 0 <= i < 3
      ensures Step(ToyEngine, ss[i], ms[i]) == Ok(Update(ss[i + 1], acts[i]))
    {
    }
    LemmaRunTrace(ToyEngine, ms, ss, acts);
    assert Flatten(acts) == [SetPreedit("a", 1, 1), Commit, ShowPopup];
  }

  /** Deactivating while a popup is pending leaves the popup flag set, so the next
      composition's `done` shows the old popup again. */
  lemma LemmaStalePopupAfterDeactivate(cands: seq<string>)
    ensures var im := Idle.(editor := Toy("n", 1, cands), state := PreEdit, currentPreedit := "n");
      var r := Run(ToyEngine, im, [Press(Named(ArrowDown)), Deactivate, Activate, Type('a'), Done]);
      && r.Ok?
      && r.value.next.state == Popup
      && r.value.actions[|r.value.actions| - 1] == ShowPopup
  {
    var im := Idle.(editor := Toy("n", 1, cands), state := PreEdit, currentPreedit := "n");
    var open := [Press(Named(ArrowDown)), Deactivate];
    var retype := [Activate, Type('a'), Done];
    assert open + retype == [Press(Named(ArrowDown)), Deactivate, Activate, Type('a'), Done];
    var u := Update(DeactivatedWithPopup(cands), PreeditRequest("n", 1) + [HidePopup]);
    assert Run(ToyEngine, im, open) == Ok(u) by {
      LemmaOpenThenDeactivate(cands);
    }
    var r := Run(ToyEngine, u.next, retype);
    assert r.Ok? && r.value.next.state == Popup && r.value.actions == [SetPreedit("a", 1, 1), Commit, ShowPopup] by {
      LemmaTypeAfterDeactivate(cands);
    }
    assert (u.actions + r.value.actions)[|u.actions + r.value.actions| - 1] == ShowPopup;
    LemmaRunAppendOk(ToyEngine, im, open, retype, u, r.value);
  }
}

=== FILE: utf8.dfy ===
/** UTF-8 as RFC 3629 (section 3) defines it, and the cursor transcoding the
controller performs: the composition engine reports its cursor in chars
(Unicode scalar values), the text-input protocol wants a byte offset into the
UTF-8 pre-edit string.
 */
module Utf8 {

  newtype byte = x: int | 0 <= x < 256

  /** Number of bytes RFC 3629 spends on one scalar value. */
  function Width(c: char): (w: nat)
    ensures 1 <= w <= 4
    ensures w == 1 <==> c as int < 0x80
  {
    if c as int < 0x80 then 1
    else if c as int < 0x800 then 2
    else if c as int < 0x1_0000 then 3
    else 4
  }

  /** Continuation bytes have the bit pattern 10xxxxxx; every other byte starts a char. */
  predicate IsContinuation(b: byte) {
    0x80 <= b < 0xC0
  }

  /** The RFC 3629 byte sequence of one scalar value. */
  function EncodeChar(c: char): (bs: seq<byte>)
    ensures |bs| == Width(c)
    ensures !IsContinuation(bs[0])
    ensures forall i :: 1 <= i < |bs| ==> IsContinuation(bs[i])
  {
    var v := c as int;
    if v < 0x80 then
      [v as byte]
    else if v < 0x800 then
      [(0xC0 + v / 0x40) as byte, (0x80 + v % 0x40) as byte]
    else if v < 0x1_0000 then
      [(0xE0 + v / 0x1000) as byte, (0x80 + v / 0x40 % 0x40) as byte, (0x80 + v % 0x40) as byte]
    else
      [(0xF0 + v / 0x4_0000) as byte, (0x80 + v / 0x1000 % 0x40) as byte,
       (0x80 + v / 0x40 % 0x40) as byte, (0x80 + v % 0x40) as byte]
  }

  /** The UTF-8 encoding of a string (what Rust stores in a `String`). */
  function Encode(s: string): seq<byte> {
    if |s| == 0 then [] else EncodeChar(s[0]) + Encode(s[1..])
  }

  /** `String::len()` of the string collected from `cs`: the sum of the char widths. */
  function CollectedLen(cs: seq<char>): nat {
    if |cs| == 0 then 0 else Width(cs[0]) + CollectedLen(cs[1..])
  }

  /** Number of bytes in `bs` that start a char. */
  function Leads(bs: seq<byte>): nat {
    if |bs| == 0 then 0 else (if IsContinuation(bs[0]) then 0 else 1) + Leads(bs[1..])
  }

  /** Rust's `str::is_char_boundary`: the ends, or any position holding a non-continuation byte. */
  predicate IsCharBoundary(bs: seq<byte>, i: nat) {
    i == 0 || i == |bs| || (i < |bs| && !IsContinuation(bs[i]))
  }

  /** The cursor transcoding of `set_cursor_position` (src/main.rs:93-99): the byte
      length of the string made of the first `k` chars of `s`. */
  function ByteOffset(s: string, k: nat): (b: nat)
    requires k <= |s|
    ensures b == |Encode(s[..k])|
  {
    LemmaCollectedLenIsEncodedLength(s[..k]);
    CollectedLen(s[..k])
  }

  /** The inverse transcoding: how many chars lie before byte offset `b` of the encoding of `s`. */
  function CharIndex(s: string, b: nat): nat
    requires b <= |Encode(s)|
  {
    Leads(Encode(s)[..b])
  }

  lemma {:induction false} LemmaCollectedLenIsEncodedLength(cs: seq<char>)
    ensures CollectedLen(cs) == |Encode(cs)|
  {
    if |cs| > 0 {
      LemmaCollectedLenIsEncodedLength(cs[1..]);
    }
  }

  /** Encoding distributes over concatenation. */
  lemma {:induction false} LemmaEncodeAppend(a: string, b: string)
    ensures Encode(a + b) == Encode(a) + Encode(b)
  {
    if |a| == 0 {
      assert a + b == b;
    } else {
      assert (a + b)[0] == a[0];
      assert (a + b)[1..] == a[1..] + b;
      LemmaEncodeAppend(a[1..], b);
      assert Encode(a + b) == EncodeChar(a[0]) + (Encode(a[1..]) + Encode(b));
      assert Encode(a) == EncodeChar(a[0]) + Encode(a[1..]);
    }
  }

  /** The encoding of a prefix is a prefix of the encoding. */
  lemma LemmaEncodeSplit(s: string, k: nat)
    requires k <= |s|
    ensures Encode(s) == Encode(s[..k]) + Encode(s[k..])
  {
    assert s == s[..k] + s[k..];
    LemmaEncodeAppend(s[..k], s[k..]);
  }

  lemma LemmaEncodeNonEmpty(s: string)
    requires |s| > 0
    ensures |Encode(s)| >= 1
    ensures Encode(s)[0] == EncodeChar(s[0])[0]
  {
  }

  /** Cursor 0 is byte 0 and the cursor after the last char is the full byte length. */
  lemma LemmaOffsetEnds(s: string)
    ensures ByteOffset(s, 0) == 0
    ensures ByteOffset(s, |s|) == |Encode(s)|
  {
    assert s[..|s|] == s;
  }

  /** Moving the cursor right by any number of chars strictly increases the byte offset. */
  lemma LemmaOffsetStrictlyMonotone(s: string, j: nat, k: nat)
    requires j < k <= |s|
    ensures ByteOffset(s, j) < ByteOffset(s, k)
  {
    var t := s[..k];
    assert t[..j] == s[..j];
    LemmaEncodeSplit(t, j);
    LemmaEncodeNonEmpty(t[j..]);
  }

  /** The transcoded cursor never lands inside a multi-byte char. */
  lemma LemmaOffsetOnBoundary(s: string, k: nat)
    requires k <= |s|
    ensures IsCharBoundary(Encode(s), ByteOffset(s, k))
  {
    LemmaEncodeSplit(s, k);
    if k < |s| {
      LemmaEncodeNonEmpty(s[k..]);
      assert Encode(s)[ByteOffset(s, k)] == Encode(s[k..])[0];
    }
  }

  /** Every char boundary of the encoding is the transcoding of some cursor. */
  lemma {:induction false} LemmaBoundaryIsOffset(s: string, i: nat) returns (k: nat)
    ensures k <= |s|
    ensures IsCharBoundary(Encode(s), i) ==> ByteOffset(s, k) == i
  {
    if i == 0 || |s| == 0 {
      k := 0;
    } else {
      var w := Width(s[0]);
      assert Encode(s) == EncodeChar(s[0]) + Encode(s[1..]);
      if i < w {
        assert Encode(s)[i] == EncodeChar(s[0])[i];
        k := 0;
      } else {
        var k' := LemmaBoundaryIsOffset(s[1..], i - w);
        k := k' + 1;
        assert s[..k][1..] == s[1..][..k'];
        assert Encode(s[..k]) == EncodeChar(s[0]) + Encode(s[1..][..k']);
        if IsCharBoundary(Encode(s), i) {
          assert IsCharBoundary(Encode(s[1..]), i - w) by {
            if i - w < |Encode(s[1..])| {
              assert Encode(s[1..])[i - w] == Encode(s)[i];
            }
          }
        }
      }
    }
  }

  lemma {:induction false} LemmaLeadsAppend(a: seq<byte>, b: seq<byte>)
    ensures Leads(a + b) == Leads(a) + Leads(b)
  {
    if |a| > 0 {
      assert (a + b)[1..] == a[1..] + b;
      LemmaLeadsAppend(a[1..], b);
    } else {
      assert a + b == b;
    }
  }

  lemma {:induction false} LemmaLeadsOfContinuations(bs: seq<byte>)
    requires forall i :: 0 <= i < |bs| ==> IsContinuation(bs[i])
    ensures Leads(bs) == 0
  {
    if |bs| > 0 {
      LemmaLeadsOfContinuations(bs[1..]);
    }
  }

  /** Each encoded char contributes exactly one lead byte. */
  lemma {:induction false} LemmaLeadsCountChars(s: string)
    ensures Leads(Encode(s)) == |s|
  {
    if |s| > 0 {
      var head := EncodeChar(s[0]);
      LemmaLeadsOfContinuations(head[1..]);
      assert Leads(head) == 1;
      LemmaLeadsAppend(head, Encode(s[1..]));
      LemmaLeadsCountChars(s[1..]);
    }
  }

  /** Round trip: transcoding a char cursor to bytes and back gives the cursor. */
  lemma LemmaCharIndexOfOffset(s: string, k: nat)
    requires k <= |s|
    ensures ByteOffset(s, k) <= |Encode(s)|
    ensures CharIndex(s, ByteOffset(s, k)) == k
  {
    LemmaEncodeSplit(s, k);
    assert Encode(s)[..ByteOffset(s, k)] == Encode(s[..k]);
    LemmaLeadsCountChars(s[..k]);
  }

  /** Round trip the other way: every char boundary survives bytes -> chars -> bytes. */
  lemma LemmaOffsetOfCharIndex(s: string, b: nat)
    requires b <= |Encode(s)|
    requires IsCharBoundary(Encode(s), b)
    ensures CharIndex(s, b) <= |s|
    ensures ByteOffset(s, CharIndex(s, b)) == b
  {
    var k := LemmaBoundaryIsOffset(s, b);
    LemmaCharIndexOfOffset(s, k);
  }
}
